=== FILE: README.md ===
# SEODeploy diff post-processing, modelled in Dafny

SEODeploy compares page data fetched from a production site with the same pages on a
staging site and reports what changed. This project models the part that turns two
page-data values into change records, together with the helpers and the URL sampling
that feed it:

- `CompareDiffs` (`comparison.dfy`, `diff_format.dfy`, `grouping.dfy`):
  - `compare` dispatches on the type of the operands;
  - `compare_objects` hands them to the structural differ (`dictdiffer.diff`);
  - `format_diffs` flattens the differ's events into records;
  - `_l2d` groups lists of records into dicts by one field;
  - `add_diffs` and `get_diffs` keep the per-path results.
- The helpers (`helpers.dfy`):
  - `group_batcher` splits a sequence into fixed-size groups;
  - `list_to_dict` keys a list of dicts by one field;
  - `dot_get` reads a nested value by a dotted path;
  - `to_dot` lists the dotted paths of a nested dict.
- `SEOTestingModule.get_samples` of the ContentKing module (`contentking.dfy`). It walks
  the pages of a report and collects the indexable URLs up to a limit.

How the Python world is represented:

- **Values.** Python values are `Values.Value`. Dicts are insertion-ordered entry lists
  with string keys, because the compared data is decoded JSON. Sets keep their elements
  in iteration order.
- **Exceptions.** Raised exceptions are `Wrappers.Result` failures. Each Python built-in
  the code leans on is modelled once in `Values`: subscription, `len`, `in`, iteration,
  `set(...)` and `''.join`. Each raises the exception Python raises.
- **The differ.** `dictdiffer.diff` is third-party code, so it is a function parameter
  (`Comparison.DiffFn`) that returns all its events at once. Every property about
  comparison holds for any such differ.
- **`item`.** The formatter's `item` is treated as what it is in the code: a label carried
  from one record to the next.

Where the documented behaviour and the code disagree, the model follows the code:

- **Change label.** For a `change` at a string location (dictdiffer's default dot
  notation), the label is the whole location string, not its first segment.
- **Nested details.** For an addition or removal under an existing key, the fallback
  label is the whole dotted location, not its first segment.
- **Set comparisons.** These emit one record per detail, not one per event.
- **Root dict details.** A root-level detail takes `detail[1][0]` as its content, so a
  scalar value such as `9` raises `TypeError` rather than becoming the content.
- **Set/dict dispatch.** In `compare_objects`, the set and dict branches test `d1` twice
  and never look at `d2`.

## Model

| member | source | states |
|---|---|---|
| Comparison.Tolerance | src/seodeploy/lib/comparison.py:99 | a missing tolerance compares exactly (0), a given one is used as is |
| Comparison.Operands | src/seodeploy/lib/comparison.py:101-110 | AttributeError exactly when neither both are lists nor `d1` is a set or dict; TypeError exactly when two lists hold an unhashable element; two lists become sets with the same members and otype `set`; a set or dict `d1` passes through with `d2` unchecked and otype `set`/`dict` |
| Comparison.CompareObjects | src/seodeploy/lib/comparison.py:97-115 | raises what the operand dispatch raises, and otherwise only AttributeError, TypeError, KeyError or IndexError |
| Comparison.CompareObjectsCharacterised | src/seodeploy/lib/comparison.py:113-115 | a successful comparison returns one record per slot of what the differ reported on the converted operands, each record matching its slot |
| Comparison.CompareObjectsNoDiffs | src/seodeploy/lib/comparison.py:113-115 | a differ that reports nothing yields an empty record list |
| Comparison.CompareListsOfObjects | src/seodeploy/lib/comparison.py:88-94 | a `content` that is neither a string nor a list raises NotImplementedError; the other failures are AttributeError, TypeError, KeyError or IndexError |
| Comparison.CompareListsByName | src/seodeploy/lib/comparison.py:88-94 | with a field name as content, the differ compares each list grouped by that name (keys and contents as the records give them), and the records are the formatting of its events as a `dict` comparison |
| Comparison.NewComparator | src/seodeploy/lib/comparison.py:41-42 | a new collector holds no entries |
| Comparison.AddDiffs | src/seodeploy/lib/comparison.py:80-81 | one entry with the path and the records is appended and the earlier entries are unchanged |
| Comparison.AddAllInOrder | src/seodeploy/lib/comparison.py:80-85 | `get_diffs` (`Comparison.GetDiffs`) returns the added entries in the order they were added |
| Comparison.Compare | src/seodeploy/lib/comparison.py:68-77 | as written: never raises TypesMismatched; succeeds exactly for a dict `d1` whose comparison succeeds, then appends that entry; a list or set `d1` always raises TypeError; anything else raises NotImplementedError |
| Comparison.MismatchNotRaised | src/seodeploy/lib/comparison.py:68-69 | a dict and a list of different types pass the type guard and are compared |
| Comparison.ListsAlwaysRaise | src/seodeploy/lib/comparison.py:72-73 | two empty lists make `compare` raise TypeError although comparing them as lists of objects succeeds |
| Comparison.CompareIntended | src/seodeploy/lib/comparison.py:68-77 | corrected: TypesMismatched exactly when the operand types differ; other non-containers raise NotImplementedError; dicts succeed exactly when `compare_objects` succeeds, lists and sets exactly when the list comparison with the default `element`/`content` fields succeeds; success appends one entry holding the path and exactly the records of that comparison, and keeps the earlier entries |
| DiffFormat.FormatChange | src/seodeploy/lib/comparison.py:128-131 | a change record fails exactly for an empty key list with a falsy label, and then with IndexError |
| DiffFormat.FormatDetail | src/seodeploy/lib/comparison.py:133-152 | formatting one add/remove detail raises only TypeError, KeyError or IndexError |
| DiffFormat.FormatDetailsFromMatches | src/seodeploy/lib/comparison.py:133-152 | the details of one event yield one record per detail, in order, each matching its slot given the label carried in, and the label carried out is the last record's |
| DiffFormat.FormatDiffsCharacterised | src/seodeploy/lib/comparison.py:118-154 | one record per change event and per add/remove detail, in event order; each carries its event's kind, element and before/after or content; its label is its branch's own (string-location changes, set details) or the carried label when truthy, else the branch's fallback |
| DiffFormat.FormatDiffsKeepsOverride | src/seodeploy/lib/comparison.py:130-145 | with a truthy override, a dict comparison and no string-location change, every record is labelled with the override |
| DiffFormat.StringLocationOverrides | src/seodeploy/lib/comparison.py:129-131 | a change at a string location labels its record with the location, whatever label was carried in |
| DiffFormat.FormatDiffsTotal | src/seodeploy/lib/comparison.py:118-154 | when every change location is a string or non-empty, every root dict detail is subscriptable at 0 and every set detail joins to a string, formatting succeeds |
| DiffFormat.FormatDiffs | src/seodeploy/lib/comparison.py:118-154 | formatting raises only TypeError, KeyError or IndexError |
| Grouping.FieldValues | src/seodeploy/lib/comparison.py:178 | the named fields of a record, read in order, each one hashable |
| Grouping.KeptByName | src/seodeploy/lib/comparison.py:175-176 | with a string `content_attr`, a record is skipped exactly when it has no non-empty string key; a kept record contributes that key and its content field |
| Grouping.KeptByNames | src/seodeploy/lib/comparison.py:178-179 | with a list `content_attr`, a kept record contributes its non-empty string key and the set of exactly its named field values, without repeats |
| Grouping.AdderKeys | src/seodeploy/lib/comparison.py:168-172 | `adder` (`Grouping.Adder`) adds the key at the end when it is new and leaves the keys alone otherwise |
| Grouping.AdderUnique | src/seodeploy/lib/comparison.py:168-172 | `adder` never creates a second entry for a key |
| Grouping.AdderGet | src/seodeploy/lib/comparison.py:168-172 | `adder` appends the content to the list under its key and leaves every other key's list unchanged |
| Grouping.GroupSpec | src/seodeploy/lib/comparison.py:168-176 | feeding contributions to `adder` gives distinct keys, present exactly when some contribution carries them, each holding its contributions in order |
| Grouping.ContributionsSound | src/seodeploy/lib/comparison.py:175-176 | every contributed key comes from a record the string branch keeps |
| Grouping.ContributionsComplete | src/seodeploy/lib/comparison.py:175-176 | every record the string branch keeps contributes its key |
| Grouping.ContributionsContents | src/seodeploy/lib/comparison.py:175-176 | the contents contributed under a key are the content fields of the records kept under it, in list order |
| Grouping.GroupListByName | src/seodeploy/lib/comparison.py:166-176 | the dict `Grouping.GroupList` builds from one list has distinct keys, exactly the kept records' keys, each mapped to the list of those records' content fields |
| Grouping.GroupListErrors | src/seodeploy/lib/comparison.py:174-179 | grouping one list raises only TypeError, KeyError or IndexError |
| Grouping.L2D | src/seodeploy/lib/comparison.py:157-184 | NotImplementedError exactly when `content_attr` is neither a string nor a list; other failures are TypeError, KeyError or IndexError; success gives two dicts |
| Grouping.L2DByName | src/seodeploy/lib/comparison.py:174-176 | with a string `content_attr`, each result is its own list grouped by name |
| Helpers.Layout | src/seodeploy/lib/helpers.py:63-64 | for a positive count, `-(-n // count)` groups of `count` hold the n items, the last holding `n % count` when the division is not exact |
| Helpers.TakeGroup | src/seodeploy/lib/helpers.py:68 | one group has `num` values: the items from the iterator position on, then `fill` once the iterator is exhausted |
| Helpers.BatchPositive | src/seodeploy/lib/helpers.py:62-68 | for a positive count, the groups are batched as `GroupBatcher` states |
| Helpers.GroupBatcher | src/seodeploy/lib/helpers.py:42-68 | ZeroDivisionError exactly for a zero count; no groups for a negative count; otherwise the fewest groups holding every item; every group but the last has `count` items; with a truthy fill every group is full and the groups read back as the items then fill; with a falsy fill they read back as exactly the items, the last group cut to `len % count` |
| Helpers.PutGet | src/seodeploy/lib/helpers.py:123 | after `result[k] = v`, `k` reads `v` and every other key reads as before |
| Helpers.PutKeys | src/seodeploy/lib/helpers.py:123 | assignment adds a new key at the end and keeps the keys otherwise |
| Helpers.PutUnique | src/seodeploy/lib/helpers.py:123 | assignment never duplicates a key |
| Helpers.Remove | src/seodeploy/lib/helpers.py:123 | removing a key leaves every other key's value unchanged and, in a dict with distinct keys, removes the key |
| Helpers.Pop | src/seodeploy/lib/helpers.py:123 | `pop` succeeds exactly on a dict holding the key, returning its value and the dict without it; scalars raise AttributeError |
| Helpers.ListToDict | src/seodeploy/lib/helpers.py:119-124 | succeeds exactly when the input is iterable and every element is a dict holding a hashable value under the key |
| Helpers.KeyAllGet | src/seodeploy/lib/helpers.py:121-124 | after the loop (`Helpers.KeyAll`), each key reads the last record carrying it, with the key field removed, or what the accumulator held |
| Helpers.KeyAllUnique | src/seodeploy/lib/helpers.py:121-124 | the loop keeps the keys of an accumulator with distinct keys distinct |
| Helpers.ListToDictSpec | src/seodeploy/lib/helpers.py:119-124 | the result has distinct keys, and each key maps to the last record carrying it, with the key field removed |
| Helpers.Reduce | src/seodeploy/lib/helpers.py:139 | folding `dict.get` over the segments raises only TypeError, and otherwise reads the nested value, or None wherever the path is missing |
| Helpers.DotGet | src/seodeploy/lib/helpers.py:136-141 | `dot_get` returns the value at the dot-separated path, or None when the path is missing or leaves the dicts |
| Helpers.PathsSound | src/seodeploy/lib/helpers.py:147-154 | in data whose dicts have distinct keys, every path `iter_dot` lists (`Helpers.Paths`) is non-empty and leads to a value that is not a dict; when no key contains a dot, neither does any path segment |
| Helpers.PathsComplete | src/seodeploy/lib/helpers.py:147-154 | every non-empty path that leads to a value that is not a dict is listed by `Helpers.Paths` |
| Helpers.PathsNoRepeats | src/seodeploy/lib/helpers.py:147-154 | in data whose dicts have distinct keys, no path is listed twice |
| Helpers.JoinedPathsDistinct | src/seodeploy/lib/helpers.py:156 | on dot-safe data, distinct listed paths join to distinct dotted strings |
| Helpers.JoinedPathRoundTrip | src/seodeploy/lib/helpers.py:136-156 | on dot-safe data, reading a listed path joined with dots back with `dot_get` gives the non-dict value at that path |
| Helpers.ToDot | src/seodeploy/lib/helpers.py:144-156 | one dotted string per listed path; on dot-safe data the strings are pairwise distinct and `dot_get` reads each back as the non-dict value at its path |
| Strings.JoinSplit | src/seodeploy/lib/helpers.py:139 | splitting on a character and joining on it gives back the string |
| Strings.SplitJoin | src/seodeploy/lib/helpers.py:156 | joining separator-free pieces and splitting again gives back the pieces |
| ContentKing.Collect | src/seodeploy/modules/contentking/__init__.py:80 | the comprehension raises only TypeError, KeyError or IndexError |
| ContentKing.CollectSound | src/seodeploy/modules/contentking/__init__.py:80 | every collected URL is the `url` field of an entry whose `is_indexable` is truthy |
| ContentKing.CollectComplete | src/seodeploy/modules/contentking/__init__.py:80 | every entry whose `is_indexable` is truthy contributes its `url` field |
| ContentKing.ComprehendInOrder | src/seodeploy/modules/contentking/__init__.py:80 | the comprehension's results are the projections of the kept entries, in entry order, exactly one per kept entry |
| ContentKing.CollectInOrder | src/seodeploy/modules/contentking/__init__.py:80 | the collected URLs are the `url` fields of the indexable entries in entry order, one per indexable entry (a strictly increasing index map onto them) |
| ContentKing.ComprehendFirstError | src/seodeploy/modules/contentking/__init__.py:80 | the comprehension reads each entry's flag and then, for a truthy flag, its projection, entry by entry; it raises exactly the first failing read's exception |
| ContentKing.PageUrls | src/seodeploy/modules/contentking/__init__.py:78-83 | a page contributes all or nothing. A falsy or non-iterable page contributes nothing. A truthy iterable page contributes its whole comprehension when that succeeds. The comprehension's KeyError or IndexError propagates unchanged; its TypeError is swallowed and the page contributes nothing. Only KeyError or IndexError escape |
| ContentKing.KeyErrorComesFirst | src/seodeploy/modules/contentking/__init__.py:78-83 | an indexable entry without `url` followed by an integer entry raises KeyError from the first entry, not a swallowed TypeError from the second |
| ContentKing.PageUrlsSound | src/seodeploy/modules/contentking/__init__.py:78-81 | every URL a page contributes is the `url` field of one of its indexable entries |
| ContentKing.AllUrlsPrefix | src/seodeploy/modules/contentking/__init__.py:75-81 | the URLs of a shorter run of pages (`ContentKing.AllUrls`) are a prefix of the URLs of the longer run |
| ContentKing.AllUrlsStep | src/seodeploy/modules/contentking/__init__.py:76-81 | reading one more page extends the URLs by that page's URLs, or raises that page's exception |
| ContentKing.AllUrlsSound | src/seodeploy/modules/contentking/__init__.py:75-81 | every URL collected from a run of pages is the `url` field of an indexable entry of one of those pages |
| ContentKing.SamplesSound | src/seodeploy/modules/contentking/__init__.py:75-92 | every sample kept from the pages read is the `url` field of an indexable entry of one of them |
| ContentKing.SliceTo | src/seodeploy/modules/contentking/__init__.py:86 | `xs[:n]` is a prefix of `xs`: `n` elements for a non-negative `n`, all but `-n` for a negative one |
| ContentKing.ReadPages | src/seodeploy/modules/contentking/__init__.py:75-87 | the loop collects the URLs of the pages read, in order; it always reads the first page there is; it stops early only at the first page after which the limit is reached, or at a page that raises KeyError or IndexError |
| ContentKing.NegativeLimitOnePage | src/seodeploy/modules/contentking/__init__.py:85-87 | a negative limit counts as reached after any page, so the loop reads at most one page |
| ContentKing.GetSamples | src/seodeploy/modules/contentking/__init__.py:67-92 | the samples are the collected URLs, cut to the limit once it is reached, and no more than a positive limit; with no limit every page is read; an empty result raises ContentSamplingError; KeyError and IndexError from a page propagate; every sample is the `url` field of an indexable entry of a page that was read; the first page is always read, and with a negative limit only the first page |

## Left out

- `mp_list_map` and `_map`: they distribute work over processes and have no logic beyond mapping a function.
- `url_to_path`: it is URL parsing by the standard library.
- `dot_set`: it builds attribute objects (`SimpleNamespace`), which have no counterpart among the modelled values.
- `process_page_data` and `maybe_replace_staging`: glue over fetched page data. The path join they do is `list_to_dict`, which is modelled as `Helpers.ListToDict`. The rest is a host substitution done by dumping the page data to JSON text, running a regular-expression replace and parsing the text back. JSON text and regular expressions have no counterpart in the value model.
- `SEOTestingModule.__init__` and `run`: they read configuration files, build a time zone for the start time, and drive the module. Driving it means fetching page data over the network and handing the pages to the base module's `run_diffs` and `prepare_messages`, which are not part of this model. None of this has logic beyond sequencing those calls. Logging is left out too.
- `load_report`: it fetches the report over the network. The pages it yields are the `pages` parameter of `ContentKing.GetSamples`, and `site_id` and the page size are not modelled.
- `dictdiffer.diff`: the differ is the `Comparison.DiffFn` parameter. Its tolerance is a real number, and nothing is assumed about the events it reports.
- `group_batcher`'s `result` argument: each group is returned as a list. Generator laziness is not modelled; all groups are collected.
- Hash equality: Python treats `True == 1` and `hash(True) == hash(1)`, so a set or dict may merge such values. The model keeps them distinct. Floating-point values are not modelled.
- Mutation and aliasing: `list_to_dict` pops the key out of the caller's dicts. The model returns the popped dict as a new value and leaves the input unchanged.
- Helpers.ListToDict: "succeeds exactly when" holds for lists whose elements are distinct dict objects. In Python, a dict object listed twice loses the key at its first pop, so its second pop raises KeyError; the model, with no object identity, succeeds on such a list.
- Set iteration order: Python's is arbitrary; the model fixes one order per set value.
- Dict keys in compared data: they are strings in the model. `list_to_dict`'s result (`Helpers.Mapping`) allows any hashable key.
- Detail keys that are lists: the `'.'.join(detail[0])` branches of `format_diffs` are not modelled. Details carry a single key or index, which is what the differ yields.
- ContentKing.GetSamples: a limit of `None` is modelled as `0`, since both are falsy and behave alike. Non-integer limits are not modelled.
- Comparison.CompareListsByName: the end-to-end grouping property is stated only for a string `content_attr`. For a list `content_attr`, each record's contribution is characterised by `Grouping.KeptByNames` and the grouping by `Grouping.GroupSpec`, but the two are not composed into one statement.
- Helpers.ToDot: the `dot_get` round trip is promised only when no key contains a dot (`Helpers.DotSafe`, on top of the distinct keys every dict has). A key containing a dot makes the dotted path ambiguous, and `dot_get` then reads a different value.
- Comparison.CompareObjects: the differ is assumed to return all its events without raising. `dictdiffer.diff` is a generator that `format_diffs` consumes as it goes, so an exception it raised mid-iteration would escape `compare_objects` after the earlier events were formatted; the error contract covers only the exceptions of the operand dispatch and of the formatter.
- DiffFormat.FormatDiffsTotal: gives a sufficient condition for success, not an exact one. `DiffFormat.FormatChange` states the exact failure condition for a change event.

## Findings

| source | as written | input that shows it | evidently intended | confidence | as-written member | corrected member |
|---|---|---|---|---|---|---|
| src/seodeploy/lib/comparison.py:68 | the type guard compares the type of `d1` with itself, so it never raises | `d1 = {}`, `d2 = []`: no TypesMismatched; the dict and the list are handed to the differ | raise TypesMismatched when `d1` and `d2` have different types | high; not executed | Comparison.MismatchNotRaised | Comparison.CompareIntended |
| src/seodeploy/lib/comparison.py:73 | the bound method is also handed the instance as its first argument, so `l1` is the instance, `l2` is `d1` and `element` is `d2`; `_l2d` then iterates the instance and raises TypeError | `d1 = d2 = []`: `compare` raises TypeError, while comparing the two lists as lists of objects succeeds | compare `d1` and `d2` as lists of objects with the default `element` and `content` fields | high; not executed | Comparison.ListsAlwaysRaise | Comparison.CompareIntended |

=== FILE: comparison.dfy ===
/** `CompareDiffs`: comparing two page-data values with a structural differ, formatting
    the differences as records, and collecting the records per compared path. */
module Comparison {
  import opened Wrappers
  import opened Values
  import opened DiffFormat
  import Grouping

  /** `dictdiffer.diff(d1, d2, tolerance=t)`. The differ is a third-party library; the
      model takes it as a parameter and assumes nothing about what it reports. */
  type DiffFn = (Value, Value, real) -> seq<Event>

  /** `tolerance or 0`: a missing tolerance compares exactly. */
  function Tolerance(t: Option<real>): (r: real)
    ensures t.None? ==> r == 0.0
    ensures t.Some? ==> r == t.value
  {
    t.GetOr(0.0)
  }

  /** Python's `type(v).__name__`. */
  function TypeName(v: Value): string
  {
    match v
    case VNone => "NoneType"
    case VBool(_) => "bool"
    case VInt(_) => "int"
    case VStr(_) => "str"
    case VList(_) => "list"
    case VSet(_) => "set"
    case VDict(_) => "dict"
  }

  // ---------------------------------------------------------------------------
  // compare_objects

  /** The dispatch at the head of `compare_objects`: the operands handed to the differ
      and the object type handed to the formatter. Two lists become sets; a set or a
      dict `d1` is passed through with `d2` unchecked (the second `isinstance` test of
      each branch looks at `d1` again); anything else raises `AttributeError`. */
  function Operands(d1: Value, d2: Value): (r: Result<(Value, Value, string)>)
    ensures r == Failure(AttributeError) <==> !(d1.VList? && d2.VList?) && !d1.VSet? && !d1.VDict?
    ensures r == Failure(TypeError) <==>
      d1.VList? && d2.VList? &&
      ((exists i :: 0 <= i < |d1.items| && !Hashable(d1.items[i])) ||
       (exists i :: 0 <= i < |d2.items| && !Hashable(d2.items[i])))
    ensures r.Success? ==> (r.value.2 == "dict" <==> d1.VDict?) && (r.value.2 == "set" <==> !d1.VDict?)
    ensures r.Success? && d1.VList? ==>
      && r.value.0.VSet? && (forall x :: x in r.value.0.elems <==> x in d1.items)
      && r.value.1.VSet? && (forall x :: x in r.value.1.elems <==> x in d2.items)
    ensures r.Success? && !d1.VList? ==> r.value.0 == d1 && r.value.1 == d2
  {
    if d1.VList? && d2.VList? then
      var s1 :- ToSet(d1.items);
      var s2 :- ToSet(d2.items);
      Success((s1, s2, "set"))
    else if d1.VSet? then Success((d1, d2, "set"))
    else if d1.VDict? then Success((d1, d2, "dict"))
    else Failure(AttributeError)
  }

  /** `compare_objects(d1, d2, item, tolerance)`. */
  function CompareObjects(d1: Value, d2: Value, item: Value, tol: Option<real>, diff: DiffFn): (r: Result<seq<Record>>)
    ensures Operands(d1, d2).Failure? ==> r == Failure(Operands(d1, d2).error)
    ensures r.Failure? ==> r.error == AttributeError || OperandError(r.error)
  {
    var (a, b, otype) :- Operands(d1, d2);
    FormatDiffs(diff(a, b, Tolerance(tol)), otype, item)
  }

  /** What `compare_objects` returns is the formatting of exactly what the differ
      reported for the converted operands, record for record. */
  lemma CompareObjectsCharacterised(d1: Value, d2: Value, item: Value, tol: Option<real>, diff: DiffFn)
    requires CompareObjects(d1, d2, item, tol, diff).Success?
    ensures Operands(d1, d2).Success?
    ensures var (a, b, otype) := Operands(d1, d2).value;
      var events := diff(a, b, Tolerance(tol));
      var rs := CompareObjects(d1, d2, item, tol, diff).value;
      |rs| == RecordCount(events) && Matches(rs, Slots(events), otype, item)
  {
    var (a, b, otype) := Operands(d1, d2).value;
    FormatDiffsCharacterised(diff(a, b, Tolerance(tol)), otype, item);
  }

  /** A differ that reports nothing yields no records. */
  lemma CompareObjectsNoDiffs(d1: Value, d2: Value, item: Value, tol: Option<real>, diff: DiffFn)
    requires Operands(d1, d2).Success?
    requires var (a, b, _) := Operands(d1, d2).value; diff(a, b, Tolerance(tol)) == []
    ensures CompareObjects(d1, d2, item, tol, diff) == Success([])
  {
    var (a, b, otype) := Operands(d1, d2).value;
    FormatDiffsTotal([], otype, item);
    FormatDiffsCharacterised([], otype, item);
  }

  // ---------------------------------------------------------------------------
  // compare_lists_of_objects

  /** `compare_lists_of_objects(l1, l2, element, content, item, tolerance)`: group both
      lists into dicts, then compare the dicts. */
  function CompareListsOfObjects(l1: Value, l2: Value, element: string, content: Value,
                                 item: Value, tol: Option<real>, diff: DiffFn): (r: Result<seq<Record>>)
    ensures !content.VStr? && !content.VList? ==> r == Failure(NotImplementedError)
    ensures r.Failure? ==> r.error == NotImplementedError || r.error == AttributeError || OperandError(r.error)
  {
    var (d1, d2) :- Grouping.L2D(l1, l2, element, content);
    CompareObjects(d1, d2, item, tol, diff)
  }

  /** With a field name as `content`, the differ sees the two lists grouped by name and
      the records are the formatting of what it reports, as a `dict` comparison. */
  lemma CompareListsByName(l1: Value, l2: Value, element: string, name: string,
                           item: Value, tol: Option<real>, diff: DiffFn)
    requires CompareListsOfObjects(l1, l2, element, VStr(name), item, tol, diff).Success?
    ensures Grouping.L2D(l1, l2, element, VStr(name)).Success?
    ensures var (d1, d2) := Grouping.L2D(l1, l2, element, VStr(name)).value;
      var events := diff(d1, d2, Tolerance(tol));
      var rs := CompareListsOfObjects(l1, l2, element, VStr(name), item, tol, diff).value;
      && Grouping.GroupedByName(d1, Iterate(l1).value, element, name)
      && Grouping.GroupedByName(d2, Iterate(l2).value, element, name)
      && |rs| == RecordCount(events)
      && Matches(rs, Slots(events), "dict", item)
  {
    var (d1, d2) := Grouping.L2D(l1, l2, element, VStr(name)).value;
    Grouping.L2DByName(l1, l2, element, name);
    CompareObjectsCharacterised(d1, d2, item, tol, diff);
  }

  // ---------------------------------------------------------------------------
  // The collector: compare, add_diffs, get_diffs

  /** One entry of `self.diffs`: `{'path': path, 'diffs': diffs}`. */
  datatype Entry = Entry(path: Value, records: seq<Record>)

  /** A `CompareDiffs` instance: its accumulated `diffs` list. */
  datatype Comparator = Comparator(diffs: seq<Entry>)

  /** `CompareDiffs()`. */
  function NewComparator(): (r: Comparator)
    ensures GetDiffs(r) == []
  {
    Comparator([])
  }

  /** `get_diffs()`. */
  function GetDiffs(c: Comparator): seq<Entry>
  {
    c.diffs
  }

  /** `add_diffs(path, diffs)`: append one entry and keep the earlier ones. */
  function AddDiffs(c: Comparator, path: Value, records: seq<Record>): (r: Comparator)
    ensures |GetDiffs(r)| == |GetDiffs(c)| + 1
    ensures GetDiffs(r)[..|GetDiffs(c)|] == GetDiffs(c)
    ensures GetDiffs(r)[|GetDiffs(c)|] == Entry(path, records)
  {
    Comparator(c.diffs + [Entry(path, records)])
  }

  /** Adding entries one at a time to a fresh collector. */
  function AddAll(c: Comparator, es: seq<Entry>): Comparator
    decreases |es|
  {
    if es == [] then c else AddAll(AddDiffs(c, es[0].path, es[0].records), es[1..])
  }

  /** `get_diffs()` returns the added entries in the order they were added. */
  lemma {:induction false} AddAllInOrder(c: Comparator, es: seq<Entry>)
    ensures GetDiffs(AddAll(c, es)) == GetDiffs(c) + es
    decreases |es|
  {
    if es != [] {
      var c' := AddDiffs(c, es[0].path, es[0].records);
      AddAllInOrder(c', es[1..]);
      assert GetDiffs(c') == GetDiffs(c) + [es[0]];
      assert [es[0]] + es[1..] == es;
    }
  }

  /** `compare(path, item, d1, d2, tolerance)` as written. The type guard compares `d1`
      with itself and never fires. A list or set `d1` reaches
      `self.compare_lists_of_objects(self, d1, d2, ...)`, which binds the instance
      itself to `l1`; `_l2d` then iterates the instance, which defines no iteration,
      so the call raises `TypeError` before anything is compared. */
  function Compare(c: Comparator, path: Value, item: Value, d1: Value, d2: Value,
                   tol: Option<real>, diff: DiffFn): (r: Result<Comparator>)
    ensures r != Failure(TypesMismatched)
    ensures r.Success? <==> d1.VDict? && CompareObjects(d1, d2, item, tol, diff).Success?
    ensures d1.VList? || d1.VSet? ==> r == Failure(TypeError)
    ensures !d1.VDict? && !d1.VList? && !d1.VSet? ==> r == Failure(NotImplementedError)
    ensures r.Success? ==>
      GetDiffs(r.value) == GetDiffs(c) + [Entry(path, CompareObjects(d1, d2, item, tol, diff).value)]
  {
    if TypeName(d1) != TypeName(d1) then Failure(TypesMismatched)
    else if d1.VDict? then
      var records :- CompareObjects(d1, d2, item, tol, diff);
      Success(AddDiffs(c, path, records))
    else if d1.VList? || d1.VSet? then Failure(TypeError)
    else Failure(NotImplementedError)
  }

  /** Dict `d1` and list `d2`: the types differ, yet `compare` as written does not raise
      `TypesMismatched`; it hands both to the differ. */
  lemma MismatchNotRaised(c: Comparator, path: Value)
    ensures TypeName(VDict([])) != TypeName(VList([]))
    ensures Compare(c, path, VNone, VDict([]), VList([]), None, (a, b, t) => []).Success?
  {
    CompareObjectsNoDiffs(VDict([]), VList([]), VNone, None, (a, b, t) => []);
  }

  /** Two empty lists: `compare` as written raises, where comparing the lists succeeds. */
  lemma ListsAlwaysRaise(c: Comparator, path: Value)
    ensures Compare(c, path, VNone, VList([]), VList([]), None, (a, b, t) => []) == Failure(TypeError)
    ensures CompareListsOfObjects(VList([]), VList([]), "element", VStr("content"), VNone, None, (a, b, t) => []).Success?
  {
    var diff: DiffFn := (a, b, t) => [];
    var (d1, d2) := Grouping.L2D(VList([]), VList([]), "element", VStr("content")).value;
    CompareObjectsNoDiffs(d1, d2, VNone, None, diff);
  }

  /** `compare` as evidently intended: operands of different types raise
      `TypesMismatched`, and lists or sets are compared as lists of objects with the
      default `element` and `content` fields. */
  function CompareIntended(c: Comparator, path: Value, item: Value, d1: Value, d2: Value,
                           tol: Option<real>, diff: DiffFn): (r: Result<Comparator>)
    ensures r == Failure(TypesMismatched) <==> TypeName(d1) != TypeName(d2)
    ensures TypeName(d1) == TypeName(d2) && !d1.VDict? && !d1.VList? && !d1.VSet? ==>
      r == Failure(NotImplementedError)
    ensures r.Success? ==> d1.VDict? || d1.VList? || d1.VSet?
    ensures TypeName(d1) == TypeName(d2) && (d1.VList? || d1.VSet?) ==>
      (r.Success? <==> CompareListsOfObjects(d1, d2, "element", VStr("content"), item, tol, diff).Success?)
    ensures TypeName(d1) == TypeName(d2) && d1.VDict? ==>
      (r.Success? <==> CompareObjects(d1, d2, item, tol, diff).Success?)
    ensures r.Success? && d1.VDict? ==>
      GetDiffs(r.value) == GetDiffs(c) + [Entry(path, CompareObjects(d1, d2, item, tol, diff).value)]
    ensures r.Success? && !d1.VDict? ==>
      GetDiffs(r.value) == GetDiffs(c) +
        [Entry(path, CompareListsOfObjects(d1, d2, "element", VStr("content"), item, tol, diff).value)]
  {
    if TypeName(d1) != TypeName(d2) then Failure(TypesMismatched)
    else if d1.VDict? then
      var records :- CompareObjects(d1, d2, item, tol, diff);
      Success(AddDiffs(c, path, records))
    else if d1.VList? || d1.VSet? then
      var records :- CompareListsOfObjects(d1, d2, "element", VStr("content"), item, tol, diff);
      Success(AddDiffs(c, path, records))
    else Failure(NotImplementedError)
  }
}

=== FILE: contentking.dfy ===
/** The ContentKing module's URL sampling: collecting the indexable URLs from the pages
    of a "pages" report, stopping once a limit is reached. */
module ContentKing {
  import opened Wrappers
  import opened Values

  /** An entry the comprehension keeps: its `is_indexable` field is truthy. */
  predicate Indexable(entry: Value)
  {
    Subscript(entry, VStr("is_indexable")).Success? && Truthy(Subscript(entry, VStr("is_indexable")).value)
  }

  /** A field read on one entry, `entry[name]`, which may raise. */
  type Field = Value -> Result<Value>

  /** `[proj(e) for e in entries if flag(e)]`, entry by entry: the first read that
      raises ends the comprehension with its exception. */
  function Comprehend(entries: seq<Value>, flag: Field, proj: Field): Result<seq<Value>>
  {
    if entries == [] then Success([])
    else
      var f :- flag(entries[0]);
      if Truthy(f) then
        var u :- proj(entries[0]);
        var rest :- Comprehend(entries[1..], flag, proj);
        Success([u] + rest)
      else Comprehend(entries[1..], flag, proj)
  }

  /** Entry `e` is read without raising: its flag, and its projection when it is kept. */
  predicate ReadsClean(e: Value, flag: Field, proj: Field)
  {
    flag(e).Success? && (Truthy(flag(e).value) ==> proj(e).Success?)
  }

  /** The exception reading entry `e` raises: the flag's, or else the projection's. */
  function ReadError(e: Value, flag: Field, proj: Field): Error
    requires !ReadsClean(e, flag, proj)
  {
    if flag(e).Failure? then flag(e).error else proj(e).error
  }

  /** Entries are read front to back, one at a time: when every entry before `i` reads
      cleanly and entry `i` raises, the comprehension raises that exception, whatever
      the later entries would raise. */
  lemma {:induction false} ComprehendFirstError(entries: seq<Value>, flag: Field, proj: Field, i: nat)
    requires i < |entries|
    requires forall k :: 0 <= k < i ==> ReadsClean(entries[k], flag, proj)
    requires !ReadsClean(entries[i], flag, proj)
    ensures Comprehend(entries, flag, proj) == Failure(ReadError(entries[i], flag, proj))
  {
    if i > 0 {
      assert ReadsClean(entries[0], flag, proj);
      forall k | 0 <= k < i - 1
        ensures ReadsClean(entries[1..][k], flag, proj)
      {
        assert entries[1..][k] == entries[k + 1];
      }
      assert entries[1..][i - 1] == entries[i];
      ComprehendFirstError(entries[1..], flag, proj, i - 1);
    }
  }

  /** The comprehension raises only what a field read raises. */
  lemma {:induction false} ComprehendErrors(entries: seq<Value>, flag: Field, proj: Field)
    requires forall x :: flag(x).Failure? ==> OperandError(flag(x).error)
    requires forall x :: proj(x).Failure? ==> OperandError(proj(x).error)
    ensures Comprehend(entries, flag, proj).Failure? ==> OperandError(Comprehend(entries, flag, proj).error)
  {
    if entries != [] {
      ComprehendErrors(entries[1..], flag, proj);
    }
  }

  /** One step of the comprehension: a kept first entry puts its projection in front of
      the results `rest` of the other entries. */
  lemma ComprehendStep(entries: seq<Value>, flag: Field, proj: Field, urls: seq<Value>) returns (rest: seq<Value>)
    requires entries != [] && Comprehend(entries, flag, proj) == Success(urls)
    ensures Comprehend(entries[1..], flag, proj) == Success(rest)
    ensures flag(entries[0]).Success?
    ensures Truthy(flag(entries[0]).value) ==> proj(entries[0]).Success?
    ensures Truthy(flag(entries[0]).value) ==> urls == [proj(entries[0]).value] + rest
    ensures !Truthy(flag(entries[0]).value) ==> urls == rest
  {
    rest := Comprehend(entries[1..], flag, proj).value;
  }

  /** Each result is the projection of a kept entry: the one at index `i`. */
  lemma {:induction false} ComprehendSound(entries: seq<Value>, flag: Field, proj: Field, urls: seq<Value>, j: nat)
    returns (i: nat)
    requires Comprehend(entries, flag, proj) == Success(urls) && j < |urls|
    ensures i < |entries| && flag(entries[i]).Success? && Truthy(flag(entries[i]).value)
    ensures proj(entries[i]) == Success(urls[j])
  {
    var rest := ComprehendStep(entries, flag, proj, urls);
    if !Truthy(flag(entries[0]).value) {
      var i' := ComprehendSound(entries[1..], flag, proj, rest, j);
      i := i' + 1;
      assert entries[i] == entries[1..][i'];
    } else if j == 0 {
      i := 0;
    } else {
      var i' := ComprehendSound(entries[1..], flag, proj, rest, j - 1);
      i := i' + 1;
      assert entries[i] == entries[1..][i'];
      assert urls[j] == rest[j - 1];
    }
  }

  /** `flag` reads truthy on `e`: the comprehension keeps `e`. */
  predicate Kept(e: Value, flag: Field)
  {
    flag(e).Success? && Truthy(flag(e).value)
  }

  /** Each index moved one entry further on. */
  function Shift(ix: seq<nat>): (r: seq<nat>)
    ensures |r| == |ix|
    ensures forall j :: 0 <= j < |ix| ==> r[j] == ix[j] + 1
  {
    seq(|ix|, j requires 0 <= j < |ix| => ix[j] + 1)
  }

  /** Result `j` is the projection of the kept entry `ix[j]`. */
  ghost predicate Projects(entries: seq<Value>, flag: Field, proj: Field, urls: seq<Value>, ix: seq<nat>)
  {
    && |ix| == |urls|
    && forall j :: 0 <= j < |ix| ==>
         ix[j] < |entries| && Kept(entries[ix[j]], flag) && proj(entries[ix[j]]) == Success(urls[j])
  }

  predicate Increasing(ix: seq<nat>)
  {
    forall a, b :: 0 <= a < b < |ix| ==> ix[a] < ix[b]
  }

  /** Every kept entry's index is listed in `ix`. */
  ghost predicate Onto(entries: seq<Value>, flag: Field, ix: seq<nat>)
  {
    forall i :: 0 <= i < |entries| && Kept(entries[i], flag) ==> i in ix
  }

  /** `ix` lists, in increasing order, exactly the indices of the kept entries, and
      result `j` is the projection of entry `ix[j]`. */
  ghost predicate Enumerates(entries: seq<Value>, flag: Field, proj: Field, urls: seq<Value>, ix: seq<nat>)
  {
    Projects(entries, flag, proj, urls, ix) && Increasing(ix) && Onto(entries, flag, ix)
  }

  /** The results are the projections of the kept entries, in entry order, one per kept
      entry. */
  lemma {:induction false} ComprehendInOrder(entries: seq<Value>, flag: Field, proj: Field, urls: seq<Value>)
    returns (ix: seq<nat>)
    requires Comprehend(entries, flag, proj) == Success(urls)
    ensures Enumerates(entries, flag, proj, urls, ix)
  {
    if entries == [] {
      ix := [];
    } else {
      var rest := ComprehendStep(entries, flag, proj, urls);
      var ix' := ComprehendInOrder(entries[1..], flag, proj, rest);
      var kept := Kept(entries[0], flag);
      ix := if kept then [0] + Shift(ix') else Shift(ix');
      ProjectsCons(entries, flag, proj, urls, rest, ix', ix);
      IncreasingCons(ix', kept, ix);
      OntoCons(entries, flag, ix', ix);
    }
  }

  lemma ProjectsCons(entries: seq<Value>, flag: Field, proj: Field, urls: seq<Value>, rest: seq<Value>,
                     ix': seq<nat>, ix: seq<nat>)
    requires entries != []
    requires Kept(entries[0], flag) ==> proj(entries[0]).Success? && urls == [proj(entries[0]).value] + rest
    requires !Kept(entries[0], flag) ==> urls == rest
    requires Projects(entries[1..], flag, proj, rest, ix')
    requires ix == if Kept(entries[0], flag) then [0] + Shift(ix') else Shift(ix')
    ensures Projects(entries, flag, proj, urls, ix)
  {
    var d := if Kept(entries[0], flag) then 1 else 0;
    forall j | 0 <= j < |ix|
      ensures ix[j] < |entries| && Kept(entries[ix[j]], flag) && proj(entries[ix[j]]) == Success(urls[j])
    {
      if j >= d {
        assert ix[j] == ix'[j - d] + 1 && urls[j] == rest[j - d];
        assert entries[ix[j]] == entries[1..][ix'[j - d]];
      }
    }
  }

  lemma IncreasingCons(ix': seq<nat>, kept: bool, ix: seq<nat>)
    requires Increasing(ix')
    requires ix == if kept then [0] + Shift(ix') else Shift(ix')
    ensures Increasing(ix)
  {
    var d := if kept then 1 else 0;
    forall a, b | 0 <= a < b < |ix|
      ensures ix[a] < ix[b]
    {
      assert ix[b] == ix'[b - d] + 1;
      if a >= d {
        assert ix[a] == ix'[a - d] + 1;
      }
    }
  }

  lemma OntoCons(entries: seq<Value>, flag: Field, ix': seq<nat>, ix: seq<nat>)
    requires entries != [] && Onto(entries[1..], flag, ix')
    requires ix == if Kept(entries[0], flag) then [0] + Shift(ix') else Shift(ix')
    ensures Onto(entries, flag, ix)
  {
    var d := if Kept(entries[0], flag) then 1 else 0;
    forall i | 0 <= i < |entries| && Kept(entries[i], flag)
      ensures i in ix
    {
      if i > 0 {
        assert entries[1..][i - 1] == entries[i];
        var j' :| 0 <= j' < |ix'| && ix'[j'] == i - 1;
        assert ix[j' + d] == i;
      }
    }
  }

  /** Each kept entry contributes its projection. */
  lemma {:induction false} ComprehendComplete(entries: seq<Value>, flag: Field, proj: Field, urls: seq<Value>, i: nat)
    requires Comprehend(entries, flag, proj) == Success(urls) && i < |entries|
    requires flag(entries[i]).Success? && Truthy(flag(entries[i]).value)
    ensures proj(entries[i]).Success? && proj(entries[i]).value in urls
  {
    var rest := ComprehendStep(entries, flag, proj, urls);
    if i > 0 {
      assert entries[1..][i - 1] == entries[i];
      ComprehendComplete(entries[1..], flag, proj, rest, i - 1);
    }
  }

  function IndexableField(entry: Value): Result<Value>
  {
    Subscript(entry, VStr("is_indexable"))
  }

  function UrlField(entry: Value): Result<Value>
  {
    Subscript(entry, VStr("url"))
  }

  /** `[url["url"] for url in entries if url["is_indexable"]]`. */
  function Collect(entries: seq<Value>): (r: Result<seq<Value>>)
    ensures r.Failure? ==> OperandError(r.error)
  {
    ComprehendErrors(entries, IndexableField, UrlField);
    Comprehend(entries, IndexableField, UrlField)
  }

  /** Each collected URL is the `url` field of an indexable entry: the one at index `i`. */
  lemma CollectSound(entries: seq<Value>, urls: seq<Value>, j: nat) returns (i: nat)
    requires Collect(entries) == Success(urls) && j < |urls|
    ensures i < |entries| && Indexable(entries[i])
    ensures Subscript(entries[i], VStr("url")) == Success(urls[j])
  {
    i := ComprehendSound(entries, IndexableField, UrlField, urls, j);
  }

  /** The collected URLs are the `url` fields of the indexable entries, in entry order,
      one per indexable entry: URL `j` comes from entry `ix[j]`. */
  lemma CollectInOrder(entries: seq<Value>, urls: seq<Value>) returns (ix: seq<nat>)
    requires Collect(entries) == Success(urls)
    ensures |ix| == |urls| && Increasing(ix)
    ensures forall j :: 0 <= j < |ix| ==>
      ix[j] < |entries| && Indexable(entries[ix[j]]) && Subscript(entries[ix[j]], VStr("url")) == Success(urls[j])
    ensures forall i :: 0 <= i < |entries| && Indexable(entries[i]) ==> i in ix
  {
    ix := ComprehendInOrder(entries, IndexableField, UrlField, urls);
  }

  /** Each indexable entry contributes its `url` field. */
  lemma CollectComplete(entries: seq<Value>, urls: seq<Value>, i: nat)
    requires Collect(entries) == Success(urls) && i < |entries| && Indexable(entries[i])
    ensures Subscript(entries[i], VStr("url")).Success?
    ensures Subscript(entries[i], VStr("url")).value in urls
  {
    ComprehendComplete(entries, IndexableField, UrlField, urls, i);
  }

  /** The URLs one page contributes: nothing for a falsy page, and nothing when the
      comprehension raises `TypeError` (a page or an entry of the wrong shape), which
      the loop swallows; `KeyError` and `IndexError` propagate. */
  function PageUrls(page: Value): (r: Result<seq<Value>>)
    ensures !Truthy(page) ==> r == Success([])
    ensures r.Failure? ==> r.error == KeyError || r.error == IndexError
    ensures r.Success? && r.value != [] ==> Iterate(page).Success? && Collect(Iterate(page).value) == r
    ensures Truthy(page) && Iterate(page).Success? && Collect(Iterate(page).value).Success? ==>
      r == Collect(Iterate(page).value)
    ensures Truthy(page) && Iterate(page).Success? && Collect(Iterate(page).value).Failure? ==>
      (r == Collect(Iterate(page).value) <==> Collect(Iterate(page).value).error != TypeError)
    ensures Iterate(page).Failure? ==> r == Success([])
    ensures Iterate(page).Success? && Collect(Iterate(page).value) == Failure(TypeError) ==> r == Success([])
  {
    if !Truthy(page) then Success([])
    else match Iterate(page)
      case Failure(_) => Success([])
      case Success(entries) =>
        match Collect(entries)
        case Failure(e) => if e == TypeError then Success([]) else Failure(e)
        case Success(urls) => Success(urls)
  }

  /** A kept entry without a `url` raises `KeyError` before the entry after it, which
      would raise `TypeError`, is read, so the page does not count as malformed. */
  lemma KeyErrorComesFirst()
    ensures PageUrls(VList([VDict([("is_indexable", VBool(true))]), VInt(5)])) == Failure(KeyError)
  {
    var entries := [VDict([("is_indexable", VBool(true))]), VInt(5)];
    assert Iterate(VList(entries)) == Success(entries);
    assert !ReadsClean(entries[0], IndexableField, UrlField);
    ComprehendFirstError(entries, IndexableField, UrlField, 0);
  }

  /** The URLs of all pages, in page order (`all_urls` with no limit); the first page
      that raises ends the walk. */
  function AllUrls(pages: seq<Value>): Result<seq<Value>>
  {
    if pages == [] then Success([])
    else
      var before :- AllUrls(pages[..|pages| - 1]);
      var here :- PageUrls(pages[|pages| - 1]);
      Success(before + here)
  }

  /** A walk that got through some pages got through every shorter run of them. */
  lemma {:induction false} AllUrlsPrefix(pages: seq<Value>, u: nat)
    requires u <= |pages|
    requires AllUrls(pages).Success?
    ensures AllUrls(pages[..u]).Success?
    ensures AllUrls(pages[..u]).value <= AllUrls(pages).value
    decreases |pages|
  {
    if u < |pages| {
      var init := pages[..|pages| - 1];
      assert init[..u] == pages[..u];
      AllUrlsPrefix(init, u);
    } else {
      assert pages[..u] == pages;
    }
  }

  lemma AllUrlsStep(pages: seq<Value>, n: nat)
    requires n < |pages| && AllUrls(pages[..n]).Success?
    ensures AllUrls(pages[..n + 1]) ==
      if PageUrls(pages[n]).Success? then Success(AllUrls(pages[..n]).value + PageUrls(pages[n]).value)
      else Failure(PageUrls(pages[n]).error)
  {
    assert pages[..n + 1][..n] == pages[..n];
  }

  /** `url` is the `url` field of the indexable entry `i` of `page`. */
  predicate UrlAt(page: Value, i: nat, url: Value)
  {
    Iterate(page).Success? && i < |Iterate(page).value|
    && Indexable(Iterate(page).value[i])
    && Subscript(Iterate(page).value[i], VStr("url")) == Success(url)
  }

  /** `url` is the `url` field of an indexable entry of `page`. */
  ghost predicate FromPage(page: Value, url: Value)
  {
    exists i: nat :: UrlAt(page, i, url)
  }

  /** `url` is the `url` field of an indexable entry of one of `pages`. */
  ghost predicate FromPages(pages: seq<Value>, url: Value)
  {
    exists u :: 0 <= u < |pages| && FromPage(pages[u], url)
  }

  /** Every URL in `all` comes from an indexable entry of one of `pages`. */
  ghost predicate Covers(pages: seq<Value>, all: seq<Value>)
  {
    forall j :: 0 <= j < |all| ==> FromPages(pages, all[j])
  }

  /** Every URL of the walk is the `url` field of an indexable entry of one of the pages. */
  lemma {:induction false} AllUrlsSound(pages: seq<Value>, all: seq<Value>)
    requires AllUrls(pages) == Success(all)
    ensures Covers(pages, all)
    decreases |pages|
  {
    if pages != [] {
      var before, here := AllUrlsSplit(pages, all);
      AllUrlsSound(pages[..|pages| - 1], before);
      PageUrlsSound(pages[|pages| - 1], here);
      CoversAppend(pages, before, here);
    }
  }

  /** Coverage by all pages but the last, plus the last page's own URLs, covers the whole walk. */
  lemma CoversAppend(pages: seq<Value>, before: seq<Value>, here: seq<Value>)
    requires pages != [] && Covers(pages[..|pages| - 1], before)
    requires forall k :: 0 <= k < |here| ==> FromPage(pages[|pages| - 1], here[k])
    ensures Covers(pages, before + here)
  {
    var all := before + here;
    forall j | 0 <= j < |all|
      ensures FromPages(pages, all[j])
    {
      if j < |before| {
        assert all[j] == before[j];
        var u :| 0 <= u < |pages| - 1 && FromPage(pages[..|pages| - 1][u], before[j]);
        assert pages[..|pages| - 1][u] == pages[u];
      } else {
        assert all[j] == here[j - |before|];
        assert FromPage(pages[|pages| - 1], all[j]);
      }
    }
  }

  /** A successful walk is the walk of all pages but the last, then the last page's URLs. */
  lemma AllUrlsSplit(pages: seq<Value>, all: seq<Value>) returns (before: seq<Value>, here: seq<Value>)
    requires AllUrls(pages) == Success(all) && pages != []
    ensures AllUrls(pages[..|pages| - 1]) == Success(before)
    ensures PageUrls(pages[|pages| - 1]) == Success(here)
    ensures all == before + here
  {
    before := AllUrls(pages[..|pages| - 1]).value;
    here := PageUrls(pages[|pages| - 1]).value;
  }

  /** Each URL a page contributes is the `url` field of one of its indexable entries. */
  lemma PageUrlsSound(page: Value, urls: seq<Value>)
    requires PageUrls(page) == Success(urls)
    ensures forall k :: 0 <= k < |urls| ==> FromPage(page, urls[k])
  {
    forall k | 0 <= k < |urls|
      ensures FromPage(page, urls[k])
    {
      var i := CollectSound(Iterate(page).value, urls, k);
      assert UrlAt(page, i, urls[k]);
    }
  }

  /** Every sample kept from the first `used` pages comes from an indexable entry of one
      of them. */
  lemma SamplesSound(pages: seq<Value>, used: nat, limit: int)
    requires used <= |pages| && AllUrls(pages[..used]).Success?
    ensures forall j :: 0 <= j < |Cut(AllUrls(pages[..used]).value, limit)| ==>
      FromPages(pages[..used], Cut(AllUrls(pages[..used]).value, limit)[j])
  {
    var all := AllUrls(pages[..used]).value;
    var samples := Cut(all, limit);
    AllUrlsSound(pages[..used], all);
    forall j | 0 <= j < |samples|
      ensures FromPages(pages[..used], samples[j])
    {
      assert samples <= all;
      assert samples[j] == all[j];
    }
  }

  /** `limit and len(all_urls) >= limit`. */
  predicate Reached(urls: seq<Value>, limit: int)
  {
    limit != 0 && |urls| >= limit
  }

  /** Python's `xs[:n]`: a negative `n` drops that many from the end. */
  function SliceTo(xs: seq<Value>, n: int): (r: seq<Value>)
    ensures r <= xs
    ensures n >= 0 ==> |r| == if n <= |xs| then n else |xs|
    ensures n < 0 ==> |r| == if |xs| + n >= 0 then |xs| + n else 0
  {
    if n >= 0 then (if n <= |xs| then xs[..n] else xs)
    else if |xs| + n >= 0 then xs[..|xs| + n] else []
  }

  /** What `all_urls` holds when the loop ends: cut to the limit once it is reached. */
  function Cut(urls: seq<Value>, limit: int): seq<Value>
  {
    if Reached(urls, limit) then SliceTo(urls, limit) else urls
  }

  /** The loop state after `used` pages: `all` holds their URLs, and the limit was not
      reached after any earlier page (nor after the last one unless the loop stops). */
  predicate SampleInv(pages: seq<Value>, used: nat, all: seq<Value>, stop: bool, limit: int)
  {
    && used <= |pages|
    && AllUrls(pages[..used]) == Success(all)
    && (forall u :: 1 <= u < used ==> AllUrls(pages[..u]).Success? && !Reached(AllUrls(pages[..u]).value, limit))
    && (stop <==> Reached(all, limit) && used >= 1)
  }

  /** Reading one more page that does not raise keeps the loop state. */
  lemma SampleStep(pages: seq<Value>, used: nat, all: seq<Value>, limit: int)
    requires SampleInv(pages, used, all, false, limit) && used < |pages|
    requires PageUrls(pages[used]).Success?
    ensures var all' := all + PageUrls(pages[used]).value;
      SampleInv(pages, used + 1, all', Reached(all', limit), limit)
  {
    AllUrlsStep(pages, used);
  }

  /** The page loop of `get_samples`: reads pages until one raises, or until the limit is
      reached after some page. Returns the URLs gathered (or the exception) and how many
      pages were read. */
  method ReadPages(pages: seq<Value>, limit: int) returns (all: Result<seq<Value>>, used: nat)
    ensures used <= |pages|
    ensures |pages| > 0 ==> used >= 1
    ensures AllUrls(pages[..used]) == all
    ensures forall u :: 1 <= u < used ==> AllUrls(pages[..u]).Success? && !Reached(AllUrls(pages[..u]).value, limit)
    ensures all.Failure? ==> all.error == KeyError || all.error == IndexError
    ensures all.Success? && used < |pages| ==> Reached(all.value, limit)
  {
    var urls: seq<Value> := [];
    used := 0;
    var stop := false;
    while used < |pages| && !stop
      invariant SampleInv(pages, used, urls, stop, limit)
      decreases |pages| - used, if stop then 0 else 1
    {
      var here := PageUrls(pages[used]);
      if here.Failure? {
        SampleFail(pages, used, urls, limit);
        return Failure(here.error), used + 1;
      }
      SampleStep(pages, used, urls, limit);
      urls := urls + here.value;
      used := used + 1;
      stop := Reached(urls, limit);
    }
    return Success(urls), used;
  }

  /** A page that raises ends the walk with its exception. */
  lemma SampleFail(pages: seq<Value>, used: nat, all: seq<Value>, limit: int)
    requires SampleInv(pages, used, all, false, limit) && used < |pages|
    requires PageUrls(pages[used]).Failure?
    ensures AllUrls(pages[..used + 1]) == Failure(PageUrls(pages[used]).error)
    ensures forall u :: 1 <= u < used + 1 ==> AllUrls(pages[..u]).Success? && !Reached(AllUrls(pages[..u]).value, limit)
  {
    AllUrlsStep(pages, used);
  }

  /** A negative limit is reached after any page, so the loop stops after the first. */
  lemma NegativeLimitOnePage(pages: seq<Value>, used: nat, limit: int)
    requires used <= |pages|
    requires forall u :: 1 <= u < used ==> AllUrls(pages[..u]).Success? && !Reached(AllUrls(pages[..u]).value, limit)
    ensures limit < 0 ==> used <= 1
  {
    if used > 1 {
      assert !Reached(AllUrls(pages[..1]).value, limit);
    }
  }

  /** `get_samples(site_id, limit)` on the pages the report yields (`limit` 0 stands for
      a falsy limit, `None` included). Also returns how many pages the loop read. The
      loop reads pages until the limit is reached after some page, then keeps the
      first `limit` URLs; no URL at all raises `ContentSamplingError`. */
  method GetSamples(pages: seq<Value>, limit: int) returns (r: Result<seq<Value>>, used: nat)
    ensures used <= |pages|
    ensures |pages| > 0 ==> used >= 1
    ensures limit < 0 && |pages| > 0 ==> used == 1
    ensures forall u :: 1 <= u < used ==> AllUrls(pages[..u]).Success? && !Reached(AllUrls(pages[..u]).value, limit)
    ensures r.Failure? && r.error != ContentSamplingError ==>
      AllUrls(pages[..used]) == Failure(r.error) && (r.error == KeyError || r.error == IndexError)
    ensures r.Success? || r == Failure(ContentSamplingError) ==>
      && AllUrls(pages[..used]).Success?
      && (used < |pages| ==> Reached(AllUrls(pages[..used]).value, limit))
      && (r.Success? <==> Cut(AllUrls(pages[..used]).value, limit) != [])
      && (r.Success? ==> r.value == Cut(AllUrls(pages[..used]).value, limit))
    ensures limit == 0 && (r.Success? || r == Failure(ContentSamplingError)) ==> used == |pages|
    ensures limit > 0 && r.Success? ==> |r.value| <= limit
    ensures r.Success? ==> forall j :: 0 <= j < |r.value| ==> FromPages(pages[..used], r.value[j])
  {
    var all;
    all, used := ReadPages(pages, limit);
    NegativeLimitOnePage(pages, used, limit);
    if all.Failure? {
      return Failure(all.error), used;
    }
    var samples := Cut(all.value, limit);
    SamplesSound(pages, used, limit);
    if |samples| == 0 {
      return Failure(ContentSamplingError), used;
    }
    return Success(samples), used;
  }
}

=== FILE: diff_format.dfy ===
/** `CompareDiffs.format_diffs`: turning the structural differ's events into flat change
    records. The label `item` is loop-carried state: each record's `item` becomes the
    label the next record starts from. */
module DiffFormat {
  import opened Wrappers
  import opened Values
  import Strings

  /** Where an event happened: the differ's dot-notation string, or a list of keys
      when some key cannot be dotted. An empty location is the root. */
  datatype Location = Dotted(path: string) | Segments(keys: seq<Key>)

  datatype Kind = Add | Remove

  /** A diff event `(ctype, location, details)`. */
  datatype Event =
    | Change(loc: Location, before: Value, after: Value)
    | AddRemove(kind: Kind, loc: Location, details: seq<(Key, Value)>)

  /** One output record: a dict with `type`, `item`, `element` and either
      `before`/`after` (changes) or `content` (additions and removals). The `type`
      field, copied from the event's `ctype`, is the constructor and its `kind`. */
  datatype Record =
    | ChangeRecord(item: Value, element: Value, before: Value, after: Value)
    | ContentRecord(kind: Kind, item: Value, element: Value, content: Value)

  /** `not location`: the event sits at the root ("new"). */
  predicate IsNew(loc: Location)
  {
    loc == Dotted("") || loc == Segments([])
  }

  function KeyStrs(ks: seq<Key>): (r: seq<string>)
    ensures |r| == |ks|
    ensures forall i :: 0 <= i < |ks| ==> r[i] == KeyStr(ks[i])
  {
    seq(|ks|, i requires 0 <= i < |ks| => KeyStr(ks[i]))
  }

  /** The location as text: the dotted string itself, or the dot-joined `str` of each key. */
  function LocStr(loc: Location): string
  {
    match loc
    case Dotted(p) => p
    case Segments(ks) => Strings.Join(KeyStrs(ks), ".")
  }

  // ---------------------------------------------------------------------------
  // The formatter, branch by branch.

  /** A `change` event: a list location labels the record with the carried `item`
      or the first key; a string location labels it with the location itself. */
  function FormatChange(loc: Location, before: Value, after: Value, item: Value): (r: Result<Record>)
    ensures r.Failure? <==> loc.Segments? && !Truthy(item) && loc.keys == []
    ensures r.Failure? ==> r.error == IndexError
  {
    match loc
    case Dotted(p) => Success(ChangeRecord(VStr(p), VStr(p), before, after))
    case Segments(ks) =>
      if Truthy(item) then Success(ChangeRecord(item, VStr(LocStr(loc)), before, after))
      else if ks == [] then Failure(IndexError)
      else Success(ChangeRecord(KeyValue(ks[0]), VStr(LocStr(loc)), before, after))
  }

  /** One `(key, value)` detail of an add/remove event. */
  function FormatDetail(kind: Kind, loc: Location, detail: (Key, Value), otype: string, item: Value): (r: Result<Record>)
    ensures r.Failure? ==> OperandError(r.error)
  {
    var (key, value) := detail;
    if otype == "dict" && IsNew(loc) then
      var content :- Subscript(value, VInt(0));
      Success(ContentRecord(kind, Or(item, KeyValue(key)), KeyValue(key), content))
    else if otype == "dict" then
      var prefix := LocStr(loc);
      Success(ContentRecord(kind, Or(item, VStr(prefix)), VStr(prefix + "." + KeyStr(key)), value))
    else
      var text :- JoinValue(value);
      Success(ContentRecord(kind, VStr(text), VNone, VNone))
  }

  /** The details of add/remove event `e` from index `i` on; returns the records and
      the label carried out of the loop. */
  function FormatDetailsFrom(e: Event, i: nat, otype: string, item: Value): Result<(seq<Record>, Value)>
    requires e.AddRemove? && i <= |e.details|
    decreases |e.details| - i
  {
    if i == |e.details| then Success(([], item))
    else
      var r :- FormatDetail(e.kind, e.loc, e.details[i], otype, item);
      var rest :- FormatDetailsFrom(e, i + 1, otype, r.item);
      Success(([r] + rest.0, rest.1))
  }

  function FormatEvent(e: Event, otype: string, item: Value): Result<(seq<Record>, Value)>
  {
    match e
    case Change(loc, before, after) =>
      var r :- FormatChange(loc, before, after, item);
      Success(([r], r.item))
    case AddRemove(_, _, _) => FormatDetailsFrom(e, 0, otype, item)
  }

  function FormatEvents(events: seq<Event>, otype: string, item: Value): Result<(seq<Record>, Value)>
    decreases |events|
  {
    if events == [] then Success(([], item))
    else
      var head :- FormatEvent(events[0], otype, item);
      var tail :- FormatEvents(events[1..], otype, head.1);
      Success((head.0 + tail.0, tail.1))
  }

  /** `format_diffs(diffs, otype, item)`: the only exceptions it raises are the
      `TypeError`, `KeyError` and `IndexError` of reading the events and `item`. */
  function FormatDiffs(events: seq<Event>, otype: string, item: Value): (r: Result<seq<Record>>)
    ensures r.Failure? ==> OperandError(r.error)
  {
    FormatEventsErrors(events, otype, item);
    var p :- FormatEvents(events, otype, item);
    Success(p.0)
  }

  // ---------------------------------------------------------------------------
  // Reference: one slot per record the formatter emits, independent of `item`.

  /** The `index`-th record position of `event`: 0 for a change, a detail index otherwise. */
  datatype Slot = Slot(event: Event, index: nat)

  predicate ValidSlot(s: Slot)
  {
    s.event.Change? ==> s.index == 0
  }

  predicate InSlot(s: Slot)
  {
    ValidSlot(s) && (s.event.AddRemove? ==> s.index < |s.event.details|)
  }

  /** One slot per change event, one per detail of an add/remove event. */
  function EventSlots(e: Event): (r: seq<Slot>)
    ensures forall j :: 0 <= j < |r| ==> r[j] == Slot(e, j) && InSlot(r[j])
    ensures |r| == if e.Change? then 1 else |e.details|
  {
    match e
    case Change(_, _, _) => [Slot(e, 0)]
    case AddRemove(_, _, ds) => seq(|ds|, i requires 0 <= i < |ds| => Slot(e, i))
  }

  /** The slots of all events, in event order. */
  function Slots(events: seq<Event>): seq<Slot>
  {
    if events == [] then [] else EventSlots(events[0]) + Slots(events[1..])
  }

  /** The number of records the events call for: one per change, one per detail. */
  function RecordCount(events: seq<Event>): nat
  {
    if events == [] then 0
    else (if events[0].Change? then 1 else |events[0].details|) + RecordCount(events[1..])
  }

  /** Slots whose branch assigns the label unconditionally: a change at a string
      location, and every add/remove detail outside the `dict` branch. */
  predicate Overwrites(s: Slot, otype: string)
  {
    (s.event.Change? && s.event.loc.Dotted?) || (s.event.AddRemove? && otype != "dict")
  }

  /** What `item or X` falls back to in the non-overwriting branches. */
  function Fallback(s: Slot): Value
    requires InSlot(s)
  {
    match s.event
    case Change(loc, _, _) =>
      if loc.Segments? && loc.keys != [] then KeyValue(loc.keys[0]) else VNone
    case AddRemove(_, loc, ds) =>
      if IsNew(loc) then KeyValue(ds[s.index].0) else VStr(LocStr(loc))
  }

  /** What a record says about its slot, apart from the carried label. */
  predicate Describes(r: Record, s: Slot, otype: string)
    requires InSlot(s)
  {
    match s.event
    case Change(loc, before, after) =>
      && r == ChangeRecord(r.item, VStr(LocStr(loc)), before, after)
      && (loc.Dotted? ==> r.item == VStr(loc.path))
    case AddRemove(kind, loc, ds) =>
      var (key, value) := ds[s.index];
      && r.ContentRecord?
      && r.kind == kind
      && (otype == "dict" && IsNew(loc) ==>
            r.element == KeyValue(key) && Subscript(value, VInt(0)) == Success(r.content))
      && (otype == "dict" && !IsNew(loc) ==>
            r.element == VStr(LocStr(loc) + "." + KeyStr(key)) && r.content == value)
      && (otype != "dict" ==>
            r.element == VNone && r.content == VNone && r.item.VStr? && JoinValue(value) == Success(r.item.s))
  }

  /** The label rule: outside the overwriting branches, a truthy label `prev` carried in
      from the previous record is kept, and a falsy one is replaced by the fallback. */
  predicate Labelled(r: Record, s: Slot, otype: string, prev: Value)
    requires InSlot(s)
  {
    !Overwrites(s, otype) ==> r.item == Or(prev, Fallback(s))
  }

  /** The label record `k` of `rs` starts from: the initial label, or the previous record's. */
  function Prev(rs: seq<Record>, k: nat, item: Value): Value
    requires k <= |rs|
  {
    if k == 0 then item else rs[k - 1].item
  }

  /** The label carried out of a run of records. */
  function Last(rs: seq<Record>, item: Value): Value
  {
    if rs == [] then item else rs[|rs| - 1].item
  }

  /** Record `r` is what slot `s` yields when the label `prev` is carried in. */
  predicate Fits(r: Record, s: Slot, otype: string, prev: Value)
  {
    InSlot(s) && Describes(r, s, otype) && Labelled(r, s, otype, prev)
  }

  /** Whether records `rs` match slots `ss` one for one, starting from label `item`. */
  predicate Matches(rs: seq<Record>, ss: seq<Slot>, otype: string, item: Value)
  {
    && |rs| == |ss|
    && (forall j :: 0 <= j < |rs| ==> Fits(rs[j], ss[j], otype, Prev(rs, j, item)))
  }

  // ---------------------------------------------------------------------------
  // Lemmas.

  lemma {:induction false} SlotsCount(events: seq<Event>)
    ensures |Slots(events)| == RecordCount(events)
    ensures forall j :: 0 <= j < |Slots(events)| ==> InSlot(Slots(events)[j]) && Slots(events)[j].event in events
  {
    if events != [] {
      SlotsCount(events[1..]);
      var s := Slots(events);
      forall j | 0 <= j < |s|
        ensures InSlot(s[j]) && s[j].event in events
      {
        var n := |EventSlots(events[0])|;
        if j >= n {
          assert s[j] == Slots(events[1..])[j - n];
          assert s[j].event in events[1..];
        }
      }
    }
  }

  lemma FormatDetailMatches(e: Event, i: nat, otype: string, item: Value)
    requires e.AddRemove? && i < |e.details|
    requires FormatDetail(e.kind, e.loc, e.details[i], otype, item).Success?
    ensures var r := FormatDetail(e.kind, e.loc, e.details[i], otype, item).value;
      Describes(r, Slot(e, i), otype) && Labelled(r, Slot(e, i), otype, item)
  {
  }

  lemma MatchesAppend(a: seq<Record>, sa: seq<Slot>, b: seq<Record>, sb: seq<Slot>, otype: string, item: Value)
    requires Matches(a, sa, otype, item)
    requires Matches(b, sb, otype, Last(a, item))
    ensures Matches(a + b, sa + sb, otype, item)
  {
    var f := (r, s, p) => Fits(r, s, otype, p);
    PairwiseAppend(a, sa, b, sb, item, f);
  }

  /** `MatchesAppend` for any per-record relation `f`. */
  lemma PairwiseAppend(a: seq<Record>, sa: seq<Slot>, b: seq<Record>, sb: seq<Slot>, item: Value,
                       f: (Record, Slot, Value) -> bool)
    requires |a| == |sa| && |b| == |sb|
    requires forall j :: 0 <= j < |a| ==> f(a[j], sa[j], Prev(a, j, item))
    requires forall j :: 0 <= j < |b| ==> f(b[j], sb[j], Prev(b, j, Last(a, item)))
    ensures forall j :: 0 <= j < |a| + |b| ==> f((a + b)[j], (sa + sb)[j], Prev(a + b, j, item))
  {
    var rs, ss := a + b, sa + sb;
    forall j | 0 <= j < |rs|
      ensures f(rs[j], ss[j], Prev(rs, j, item))
    {
      if j < |a| {
        assert rs[j] == a[j] && ss[j] == sa[j];
      } else {
        var k := j - |a|;
        assert f(b[k], sb[k], Prev(b, k, Last(a, item)));
        assert rs[j] == b[k] && ss[j] == sb[k];
        assert Prev(rs, j, item) == Prev(b, k, Last(a, item));
      }
    }
  }

  lemma LastAppend(a: seq<Record>, b: seq<Record>, item: Value)
    ensures Last(a + b, item) == Last(b, Last(a, item))
  {
    if b != [] {
      assert (a + b)[|a + b| - 1] == b[|b| - 1];
    }
  }

  lemma FormatDetailsFromStep(e: Event, i: nat, otype: string, item: Value)
    requires e.AddRemove? && i < |e.details|
    requires FormatDetailsFrom(e, i, otype, item).Success?
    ensures FormatDetail(e.kind, e.loc, e.details[i], otype, item).Success?
    ensures var r := FormatDetail(e.kind, e.loc, e.details[i], otype, item).value;
      && FormatDetailsFrom(e, i + 1, otype, r.item).Success?
      && var rest := FormatDetailsFrom(e, i + 1, otype, r.item).value;
         FormatDetailsFrom(e, i, otype, item).value == ([r] + rest.0, rest.1)
  {
  }

  lemma {:induction false} FormatDetailsFromMatches(e: Event, i: nat, otype: string, item: Value)
    requires e.AddRemove? && i <= |e.details|
    requires FormatDetailsFrom(e, i, otype, item).Success?
    ensures var p := FormatDetailsFrom(e, i, otype, item).value;
      Matches(p.0, EventSlots(e)[i..], otype, item) && p.1 == Last(p.0, item)
    decreases |e.details| - i
  {
    if i < |e.details| {
      FormatDetailsFromStep(e, i, otype, item);
      var r := FormatDetail(e.kind, e.loc, e.details[i], otype, item).value;
      FormatDetailMatches(e, i, otype, item);
      FormatDetailsFromMatches(e, i + 1, otype, r.item);
      var rest := FormatDetailsFrom(e, i + 1, otype, r.item).value;
      SlotsFrom(e, i);
      MatchesCons(r, Slot(e, i), rest.0, EventSlots(e)[i + 1..], otype, item);
    } else {
      assert EventSlots(e)[i..] == [];
    }
  }

  lemma SlotsFrom(e: Event, i: nat)
    requires e.AddRemove? && i < |e.details|
    ensures EventSlots(e)[i..] == [Slot(e, i)] + EventSlots(e)[i + 1..]
  {
  }

  /** A record that fits its slot, followed by records matching the following slots. */
  lemma MatchesCons(r: Record, s: Slot, rest: seq<Record>, ss: seq<Slot>, otype: string, item: Value)
    requires Fits(r, s, otype, item)
    requires Matches(rest, ss, otype, r.item)
    ensures Matches([r] + rest, [s] + ss, otype, item)
    ensures Last([r] + rest, item) == Last(rest, r.item)
  {
    assert Prev([r], 0, item) == item;
    MatchesAppend([r], [s], rest, ss, otype, item);
    LastAppend([r], rest, item);
  }

  lemma FormatEventMatches(e: Event, otype: string, item: Value)
    requires FormatEvent(e, otype, item).Success?
    ensures var p := FormatEvent(e, otype, item).value;
      Matches(p.0, EventSlots(e), otype, item) && p.1 == Last(p.0, item)
  {
    if e.AddRemove? {
      FormatDetailsFromMatches(e, 0, otype, item);
      assert EventSlots(e)[0..] == EventSlots(e);
    } else {
      var r := FormatChange(e.loc, e.before, e.after, item).value;
      assert Fits(r, Slot(e, 0), otype, Prev([r], 0, item));
    }
  }

  lemma FormatEventsStep(events: seq<Event>, otype: string, item: Value)
    requires events != []
    requires FormatEvents(events, otype, item).Success?
    ensures FormatEvent(events[0], otype, item).Success?
    ensures var head := FormatEvent(events[0], otype, item).value;
      && FormatEvents(events[1..], otype, head.1).Success?
      && var tail := FormatEvents(events[1..], otype, head.1).value;
         FormatEvents(events, otype, item).value == (head.0 + tail.0, tail.1)
  {
  }

  lemma {:induction false} FormatEventsMatches(events: seq<Event>, otype: string, item: Value)
    requires FormatEvents(events, otype, item).Success?
    ensures var p := FormatEvents(events, otype, item).value;
      Matches(p.0, Slots(events), otype, item) && p.1 == Last(p.0, item)
    decreases |events|
  {
    if events != [] {
      FormatEventsStep(events, otype, item);
      var head := FormatEvent(events[0], otype, item).value;
      FormatEventMatches(events[0], otype, item);
      FormatEventsMatches(events[1..], otype, head.1);
      var tail := FormatEvents(events[1..], otype, head.1).value;
      MatchesAppend(head.0, EventSlots(events[0]), tail.0, Slots(events[1..]), otype, item);
      LastAppend(head.0, tail.0, item);
    }
  }

  /** `format_diffs` emits, in event order, exactly one record per change event and one
      per detail of an add/remove event; each record carries its event's type and the
      element, before/after or content its branch computes; and each label is either the
      branch's own (string-location changes, set details) or the carried label when that
      is truthy, the fallback otherwise. */
  lemma FormatDiffsCharacterised(events: seq<Event>, otype: string, item: Value)
    requires FormatDiffs(events, otype, item).Success?
    ensures var rs := FormatDiffs(events, otype, item).value;
      && |rs| == RecordCount(events)
      && Matches(rs, Slots(events), otype, item)
  {
    FormatEventsMatches(events, otype, item);
    SlotsCount(events);
  }

  /** With a truthy override, a `dict` comparison and no string-location change, every
      record is labelled with the override. */
  lemma FormatDiffsKeepsOverride(events: seq<Event>, item: Value)
    requires Truthy(item)
    requires forall e :: e in events ==> !(e.Change? && e.loc.Dotted?)
    requires FormatDiffs(events, "dict", item).Success?
    ensures forall r :: r in FormatDiffs(events, "dict", item).value ==> r.item == item
  {
    var rs := FormatDiffs(events, "dict", item).value;
    var ss := Slots(events);
    FormatDiffsCharacterised(events, "dict", item);
    SlotsCount(events);
    forall k | 0 <= k < |rs| && Truthy(Prev(rs, k, item))
      ensures rs[k].item == Prev(rs, k, item)
    {
      assert ss[k].event in events;
      FitsLabel(rs[k], ss[k], "dict", Prev(rs, k, item));
    }
    forall j | 0 <= j < |rs|
      ensures rs[j].item == item
    {
      KeepsLabel(rs, item, j);
    }
  }

  lemma FitsLabel(r: Record, s: Slot, otype: string, prev: Value)
    requires Fits(r, s, otype, prev)
    requires !Overwrites(s, otype)
    ensures r.item == Or(prev, Fallback(s))
  {
  }

  /** A truthy initial label that every record keeps while it is truthy labels every record. */
  lemma {:induction false} KeepsLabel(rs: seq<Record>, item: Value, j: nat)
    requires Truthy(item)
    requires forall k :: 0 <= k < |rs| && Truthy(Prev(rs, k, item)) ==> rs[k].item == Prev(rs, k, item)
    requires j < |rs|
    ensures rs[j].item == item
  {
    if j > 0 {
      KeepsLabel(rs, item, j - 1);
    }
  }

  /** A string-location change labels its record with the location whatever label is
      carried in, and that label is what the next record starts from. */
  lemma StringLocationOverrides(events: seq<Event>, otype: string, item: Value, j: nat)
    requires FormatDiffs(events, otype, item).Success?
    requires j < |Slots(events)|
    requires Slots(events)[j].event.Change? && Slots(events)[j].event.loc.Dotted?
    ensures var rs := FormatDiffs(events, otype, item).value;
      && j < |rs|
      && rs[j].item == VStr(Slots(events)[j].event.loc.path)
      && (j + 1 < |rs| ==> Prev(rs, j + 1, item) == rs[j].item)
  {
    FormatDiffsCharacterised(events, otype, item);
    var rs := FormatDiffs(events, otype, item).value;
    assert Fits(rs[j], Slots(events)[j], otype, Prev(rs, j, item));
  }

  /** A slot the formatter can always handle: list locations of changes are non-empty,
      root-level `dict` details are subscriptable at 0, and set details are iterables
      of strings. */
  predicate Handled(s: Slot, otype: string)
    requires InSlot(s)
  {
    match s.event
    case Change(loc, _, _) => loc.Segments? ==> loc.keys != []
    case AddRemove(_, loc, ds) =>
      && (otype == "dict" && IsNew(loc) ==> Subscript(ds[s.index].1, VInt(0)).Success?)
      && (otype != "dict" ==> JoinValue(ds[s.index].1).Success?)
  }

  lemma {:induction false} FormatDetailsFromTotal(e: Event, i: nat, otype: string, item: Value)
    requires e.AddRemove? && i <= |e.details|
    requires forall k :: i <= k < |e.details| ==> Handled(Slot(e, k), otype)
    ensures FormatDetailsFrom(e, i, otype, item).Success?
    decreases |e.details| - i
  {
    if i < |e.details| {
      assert Handled(Slot(e, i), otype);
      var r := FormatDetail(e.kind, e.loc, e.details[i], otype, item);
      assert r.Success?;
      FormatDetailsFromTotal(e, i + 1, otype, r.value.item);
    }
  }

  lemma {:induction false} FormatEventsTotal(events: seq<Event>, otype: string, item: Value)
    requires forall j :: 0 <= j < |Slots(events)| ==> InSlot(Slots(events)[j]) && Handled(Slots(events)[j], otype)
    ensures FormatEvents(events, otype, item).Success?
    decreases |events|
  {
    if events != [] {
      var e := events[0];
      var here := EventSlots(e);
      assert forall j :: 0 <= j < |here| ==> Slots(events)[j] == here[j];
      if e.AddRemove? {
        FormatDetailsFromTotal(e, 0, otype, item);
      } else {
        assert Handled(here[0], otype);
      }
      var head := FormatEvent(e, otype, item).value;
      forall j | 0 <= j < |Slots(events[1..])|
        ensures InSlot(Slots(events[1..])[j]) && Handled(Slots(events[1..])[j], otype)
      {
        assert Slots(events)[|here| + j] == Slots(events[1..])[j];
      }
      FormatEventsTotal(events[1..], otype, head.1);
    }
  }

  /** Every slot the formatter can handle yields a record: `format_diffs` raises only
      for a change at an empty list location, a root `dict` detail that cannot be
      indexed at 0, or a set detail that is not an iterable of strings. */
  lemma FormatDiffsTotal(events: seq<Event>, otype: string, item: Value)
    requires forall j :: 0 <= j < |Slots(events)| ==> InSlot(Slots(events)[j]) && Handled(Slots(events)[j], otype)
    ensures FormatDiffs(events, otype, item).Success?
  {
    FormatEventsTotal(events, otype, item);
  }

  /** `format_diffs` raises only `TypeError`, `KeyError` or `IndexError`, from
      subscripting or joining a detail or indexing an empty location. */
  lemma {:induction false} FormatDetailsFromErrors(e: Event, i: nat, otype: string, item: Value)
    requires e.AddRemove? && i <= |e.details|
    ensures FormatDetailsFrom(e, i, otype, item).Failure? ==> OperandError(FormatDetailsFrom(e, i, otype, item).error)
    decreases |e.details| - i
  {
    if i < |e.details| {
      var r := FormatDetail(e.kind, e.loc, e.details[i], otype, item);
      if r.Success? {
        FormatDetailsFromErrors(e, i + 1, otype, r.value.item);
      }
    }
  }

  lemma {:induction false} FormatEventsErrors(events: seq<Event>, otype: string, item: Value)
    ensures FormatEvents(events, otype, item).Failure? ==> OperandError(FormatEvents(events, otype, item).error)
    decreases |events|
  {
    if events != [] {
      if events[0].AddRemove? {
        FormatDetailsFromErrors(events[0], 0, otype, item);
      }
      var head := FormatEvent(events[0], otype, item);
      if head.Success? {
        FormatEventsErrors(events[1..], otype, head.value.1);
      }
    }
  }
}

=== FILE: grouping.dfy ===
/** `CompareDiffs._l2d`: grouping two lists of records into dicts keyed by one field,
    so that the structural differ can compare them. */
module Grouping {
  import opened Wrappers
  import opened Values

  /** The `content_attr` argument once its Python type is known: one field name, or a
      list of field names. */
  datatype ContentSpec = ByName(name: string) | ByNames(names: seq<Value>)

  /** A grouped dict under construction: keys in first-occurrence order, each with the
      list of contents added under it. */
  type Groups = seq<(string, seq<Value>)>

  // ---------------------------------------------------------------------------
  // One record.

  /** The values of fields `names` of `rec`, as the set comprehension `{i[v] for v in
      content_attr}` reads them: in order, each one hashed as it is added. */
  function FieldValues(rec: Value, names: seq<Value>): (r: Result<seq<Value>>)
    ensures r.Success? ==> |r.value| == |names|
    ensures r.Success? ==> forall j :: 0 <= j < |names| ==>
      Subscript(rec, names[j]) == Success(r.value[j]) && Hashable(r.value[j])
  {
    if names == [] then Success([])
    else
      var x :- Subscript(rec, names[0]);
      if !Hashable(x) then Failure(TypeError)
      else
        var rest :- FieldValues(rec, names[1..]);
        Success([x] + rest)
  }

  /** The key of a record the string branch keeps: the `key` field is present and is a
      non-empty string. */
  predicate Selects(rec: Value, key: string, k: string)
  {
    rec.VDict? && Lookup(rec.entries, key) == Some(VStr(k)) && k != ""
  }

  /** What one record contributes: `None` when the filter skips it, the key and the
      content `adder` receives otherwise. A non-empty key that is not a string is
      unhashable (`TypeError` in `adder`), since only strings are both sized and hashable. */
  function Contribution(rec: Value, key: string, spec: ContentSpec): Result<Option<(string, Value)>>
  {
    match spec
    case ByName(name) => ContributionByName(rec, key, name)
    case ByNames(names) => ContributionByNames(rec, key, names)
  }

  /** `key_attr in i and len(i[key_attr])`, then `adder(i[key_attr], i[content_attr], d)`. */
  function ContributionByName(rec: Value, key: string, name: string): Result<Option<(string, Value)>>
  {
    var present :- Contains(rec, key);
    if !present then Success(None)
    else
      var k :- Subscript(rec, VStr(key));
      var n :- Len(k);
      if n == 0 then Success(None)
      else
        var c :- Subscript(rec, VStr(name));
        if k.VStr? then Success(Some((k.s, c))) else Failure(TypeError)
  }

  /** `i[key_attr] and len(i[key_attr])`, then `adder(i[key_attr], {i[v] for v in
      content_attr}, d)`; a truthy sized value has a non-zero length, so the `len` test
      never skips a record. */
  function ContributionByNames(rec: Value, key: string, names: seq<Value>): Result<Option<(string, Value)>>
  {
    var k :- Subscript(rec, VStr(key));
    if !Truthy(k) then Success(None)
    else
      var _ :- Len(k);
      var xs :- FieldValues(rec, names);
      if k.VStr? then Success(Some((k.s, VSet(Dedup(xs))))) else Failure(TypeError)
  }

  /** A record kept by the string branch is a dict with a non-empty string key, and it
      contributes that key with its content field; every other record is skipped. */
  lemma KeptByName(rec: Value, key: string, name: string)
    requires ContributionByName(rec, key, name).Success?
    ensures var e := ContributionByName(rec, key, name).value;
      && (e.None? <==> forall k :: !Selects(rec, key, k))
      && (e.Some? ==> Selects(rec, key, e.value.0) && Subscript(rec, VStr(name)) == Success(e.value.1))
  {
    var e := ContributionByName(rec, key, name).value;
    if e.Some? {
      assert Contains(rec, key) == Success(true);
      var kv := Subscript(rec, VStr(key));
      assert kv.Success? && kv.value == VStr(e.value.0);
      assert Lookup(rec.entries, key) == Some(kv.value);
      assert Selects(rec, key, e.value.0);
    }
  }

  /** A record kept under `k` contributes `k`. */
  lemma KeptUnder(rec: Value, key: string, name: string, k: string)
    requires ContributionByName(rec, key, name).Success?
    requires Selects(rec, key, k)
    ensures ContributionByName(rec, key, name).value.Some?
    ensures ContributionByName(rec, key, name).value.value.0 == k
  {
    KeptByName(rec, key, name);
  }

  /** A record kept by the list branch contributes the set of its named field values. */
  lemma KeptByNames(rec: Value, key: string, names: seq<Value>)
    requires ContributionByNames(rec, key, names).Success?
    requires ContributionByNames(rec, key, names).value.Some?
    ensures var (k, c) := ContributionByNames(rec, key, names).value.value;
      && Subscript(rec, VStr(key)) == Success(VStr(k)) && k != ""
      && c.VSet?
      && (forall j, j' :: 0 <= j < j' < |c.elems| ==> c.elems[j] != c.elems[j'])
      && (forall x :: x in c.elems <==> exists j :: 0 <= j < |names| && Subscript(rec, names[j]) == Success(x))
  {
    var xs := FieldValues(rec, names).value;
    var c := ContributionByNames(rec, key, names).value.value.1;
    forall x
      ensures x in c.elems <==> exists j :: 0 <= j < |names| && Subscript(rec, names[j]) == Success(x)
    {
      if x in c.elems {
        var j :| 0 <= j < |xs| && xs[j] == x;
        assert Subscript(rec, names[j]) == Success(x);
      }
      if exists j :: 0 <= j < |names| && Subscript(rec, names[j]) == Success(x) {
        var j :| 0 <= j < |names| && Subscript(rec, names[j]) == Success(x);
        assert xs[j] == x;
      }
    }
  }

  // ---------------------------------------------------------------------------
  // One list.

  /** Some contribution carries key `k`. */
  predicate HasKey(pairs: seq<(string, Value)>, k: string)
  {
    exists i :: 0 <= i < |pairs| && pairs[i].0 == k
  }

  /** Some record is kept by the string branch under key `k`. */
  predicate SomeSelects(recs: seq<Value>, key: string, k: string)
  {
    exists i :: 0 <= i < |recs| && Selects(recs[i], key, k)
  }

  /** The contributions of all records, in list order; the first failing record raises. */
  function Contributions(recs: seq<Value>, key: string, spec: ContentSpec): Result<seq<(string, Value)>>
  {
    if recs == [] then Success([])
    else
      var e :- Contribution(recs[0], key, spec);
      var rest :- Contributions(recs[1..], key, spec);
      Success((if e.Some? then [e.value] else []) + rest)
  }

  lemma ContributionsStep(recs: seq<Value>, key: string, spec: ContentSpec)
    requires recs != []
    requires Contributions(recs, key, spec).Success?
    ensures Contribution(recs[0], key, spec).Success?
    ensures Contributions(recs[1..], key, spec).Success?
    ensures var e := Contribution(recs[0], key, spec).value;
      Contributions(recs, key, spec).value
        == (if e.Some? then [e.value] else []) + Contributions(recs[1..], key, spec).value
  {
  }

  /** The contents grouped under `k` (empty when `k` is absent). */
  function Get(g: Groups, k: string): seq<Value>
  {
    Lookup(g, k).GetOr([])
  }

  /** The nested `adder`: append `c` to the list under `k`, creating it on first use. */
  function Adder(g: Groups, k: string, c: Value): Groups
  {
    if g == [] then [(k, [c])]
    else if g[0].0 == k then [(k, g[0].1 + [c])] + g[1..]
    else [g[0]] + Adder(g[1..], k, c)
  }

  /** `adder` adds `k` at the end of the keys when it is new, and nothing else. */
  lemma {:induction false} AdderKeys(g: Groups, k: string, c: Value)
    ensures Keys(Adder(g, k, c)) == if k in Keys(g) then Keys(g) else Keys(g) + [k]
    ensures forall k' :: k' in Keys(Adder(g, k, c)) <==> k' in Keys(g) || k' == k
  {
    if g != [] {
      KeysCons(g[0], g[1..]);
      assert g == [g[0]] + g[1..];
      if g[0].0 == k {
        KeysCons((k, g[0].1 + [c]), g[1..]);
      } else {
        AdderKeys(g[1..], k, c);
        KeysCons(g[0], Adder(g[1..], k, c));
      }
    }
  }

  /** `adder` never creates a second entry for a key. */
  lemma {:induction false} AdderUnique(g: Groups, k: string, c: Value)
    requires UniqueKeys(g)
    ensures UniqueKeys(Adder(g, k, c))
  {
    if g != [] {
      UniqueTail(g);
      if g[0].0 == k {
        UniqueCons((k, g[0].1 + [c]), g[1..]);
      } else {
        AdderUnique(g[1..], k, c);
        AdderKeys(g[1..], k, c);
        UniqueCons(g[0], Adder(g[1..], k, c));
      }
    }
  }

  /** `adder` appends `c` to the contents under `k` and leaves every other key alone. */
  lemma {:induction false} AdderGet(g: Groups, k: string, c: Value, k': string)
    ensures Get(Adder(g, k, c), k') == if k' == k then Get(g, k) + [c] else Get(g, k')
  {
    if g != [] && g[0].0 != k {
      AdderGet(g[1..], k, c, k');
    }
  }

  /** Feeding the contributions to `adder` one by one. */
  function Group(pairs: seq<(string, Value)>): Groups
  {
    if pairs == [] then []
    else
      var last := pairs[|pairs| - 1];
      Adder(Group(pairs[..|pairs| - 1]), last.0, last.1)
  }

  /** The contents contributed under `k`, in order. */
  function Select(pairs: seq<(string, Value)>, k: string): seq<Value>
  {
    if pairs == [] then []
    else
      var last := pairs[|pairs| - 1];
      Select(pairs[..|pairs| - 1], k) + (if last.0 == k then [last.1] else [])
  }

  /** Grouping keeps one entry per distinct key, present exactly when some contribution
      carries it, holding that key's contents in contribution order. */
  lemma GroupSpec(pairs: seq<(string, Value)>)
    ensures UniqueKeys(Group(pairs))
    ensures forall k :: k in Keys(Group(pairs)) <==> HasKey(pairs, k)
    ensures forall k :: Get(Group(pairs), k) == Select(pairs, k)
  {
    GroupUnique(pairs);
    forall k
      ensures k in Keys(Group(pairs)) <==> HasKey(pairs, k)
    {
      GroupHas(pairs, k);
    }
    forall k
      ensures Get(Group(pairs), k) == Select(pairs, k)
    {
      GroupGet(pairs, k);
    }
  }

  lemma {:induction false} GroupUnique(pairs: seq<(string, Value)>)
    ensures UniqueKeys(Group(pairs))
  {
    if pairs != [] {
      var last := pairs[|pairs| - 1];
      GroupUnique(pairs[..|pairs| - 1]);
      AdderUnique(Group(pairs[..|pairs| - 1]), last.0, last.1);
    }
  }

  lemma {:induction false} GroupHas(pairs: seq<(string, Value)>, k: string)
    ensures k in Keys(Group(pairs)) <==> HasKey(pairs, k)
  {
    if pairs != [] {
      var init := pairs[..|pairs| - 1];
      var last := pairs[|pairs| - 1];
      GroupHas(init, k);
      AdderKeys(Group(init), last.0, last.1);
      assert pairs == init + [last];
      HasKeyAppend(init, [last], k);
      assert HasKey([last], k) <==> last.0 == k by {
        if last.0 == k {
          assert [last][0].0 == k;
        }
      }
    }
  }

  lemma {:induction false} GroupGet(pairs: seq<(string, Value)>, k: string)
    ensures Get(Group(pairs), k) == Select(pairs, k)
  {
    if pairs != [] {
      var init := pairs[..|pairs| - 1];
      var last := pairs[|pairs| - 1];
      GroupGet(init, k);
      AdderGet(Group(init), last.0, last.1, k);
    }
  }

  /** The dict `_l2d` builds from one list: each key maps to the list of its contents. */
  function AsDict(g: Groups): (r: Value)
    ensures r.VDict? && Keys(r.entries) == Keys(g)
    ensures forall i :: 0 <= i < |g| ==> r.entries[i].1 == VList(g[i].1)
  {
    VDict(seq(|g|, i requires 0 <= i < |g| => (g[i].0, VList(g[i].1))))
  }

  /** The grouped dict of one input list. */
  function GroupList(l: Value, key: string, spec: ContentSpec): Result<Value>
  {
    var recs :- Iterate(l);
    var pairs :- Contributions(recs, key, spec);
    Success(AsDict(Group(pairs)))
  }

  /** The `name` field of every record the string branch keeps under `k`, in order. */
  function ContentsUnder(recs: seq<Value>, key: string, name: string, k: string): seq<Value>
  {
    if recs == [] then []
    else
      var here := if Selects(recs[0], key, k) then [Subscript(recs[0], VStr(name)).GetOr(VNone)] else [];
      here + ContentsUnder(recs[1..], key, name, k)
  }

  /** Contributions listed front to back agree with `Select`, which reads them back to front. */
  lemma {:induction false} SelectCons(p: (string, Value), rest: seq<(string, Value)>, k: string)
    ensures Select([p] + rest, k) == (if p.0 == k then [p.1] else []) + Select(rest, k)
    decreases |rest|
  {
    if rest != [] {
      var all := [p] + rest;
      assert all[..|all| - 1] == [p] + rest[..|rest| - 1];
      SelectCons(p, rest[..|rest| - 1], k);
    }
  }

  lemma HasKeyAppend(here: seq<(string, Value)>, rest: seq<(string, Value)>, k: string)
    ensures HasKey(here + rest, k) <==> HasKey(here, k) || HasKey(rest, k)
  {
    var all := here + rest;
    if HasKey(rest, k) {
      var i :| 0 <= i < |rest| && rest[i].0 == k;
      assert all[i + |here|] == rest[i];
    }
    if HasKey(here, k) {
      var i :| 0 <= i < |here| && here[i].0 == k;
      assert all[i] == here[i];
    }
    if HasKey(all, k) {
      var i :| 0 <= i < |all| && all[i].0 == k;
      if i < |here| {
        assert here[i] == all[i];
      } else {
        assert rest[i - |here|] == all[i];
      }
    }
  }

  lemma SomeSelectsCons(recs: seq<Value>, key: string, k: string)
    requires recs != []
    ensures SomeSelects(recs, key, k) <==> Selects(recs[0], key, k) || SomeSelects(recs[1..], key, k)
  {
    if SomeSelects(recs[1..], key, k) {
      var i :| 0 <= i < |recs[1..]| && Selects(recs[1..][i], key, k);
      assert recs[i + 1] == recs[1..][i];
    }
    if SomeSelects(recs, key, k) && !Selects(recs[0], key, k) {
      var i :| 0 <= i < |recs| && Selects(recs[i], key, k);
      assert recs[1..][i - 1] == recs[i];
    }
  }

  /** Every key a contribution carries comes from a record the string branch keeps. */
  lemma {:induction false} ContributionsSound(recs: seq<Value>, key: string, name: string, k: string)
    requires Contributions(recs, key, ByName(name)).Success?
    requires HasKey(Contributions(recs, key, ByName(name)).value, k)
    ensures SomeSelects(recs, key, k)
  {
    ContributionsStep(recs, key, ByName(name));
    var e := Contribution(recs[0], key, ByName(name)).value;
    var rest := Contributions(recs[1..], key, ByName(name)).value;
    var here := if e.Some? then [e.value] else [];
    HasKeyAppend(here, rest, k);
    SomeSelectsCons(recs, key, k);
    if HasKey(here, k) {
      KeptByName(recs[0], key, name);
    } else {
      ContributionsSound(recs[1..], key, name, k);
    }
  }

  /** Every record the string branch keeps contributes its key. */
  lemma {:induction false} ContributionsComplete(recs: seq<Value>, key: string, name: string, k: string)
    requires Contributions(recs, key, ByName(name)).Success?
    requires SomeSelects(recs, key, k)
    ensures HasKey(Contributions(recs, key, ByName(name)).value, k)
  {
    ContributionsStep(recs, key, ByName(name));
    var e := Contribution(recs[0], key, ByName(name)).value;
    var rest := Contributions(recs[1..], key, ByName(name)).value;
    var here := if e.Some? then [e.value] else [];
    HasKeyAppend(here, rest, k);
    SomeSelectsCons(recs, key, k);
    if Selects(recs[0], key, k) {
      KeptUnder(recs[0], key, name, k);
      assert here[0].0 == k;
    } else {
      ContributionsComplete(recs[1..], key, name, k);
    }
  }

  lemma {:induction false} ContributionsContents(recs: seq<Value>, key: string, name: string, k: string)
    requires Contributions(recs, key, ByName(name)).Success?
    ensures Select(Contributions(recs, key, ByName(name)).value, k) == ContentsUnder(recs, key, name, k)
  {
    if recs != [] {
      ContributionsStep(recs, key, ByName(name));
      var pairs := Contributions(recs, key, ByName(name)).value;
      var e := ContributionByName(recs[0], key, name).value;
      var rest := Contributions(recs[1..], key, ByName(name)).value;
      KeptByName(recs[0], key, name);
      ContributionsContents(recs[1..], key, name, k);
      if e.Some? {
        assert pairs == [e.value] + rest;
        SelectCons(e.value, rest, k);
        assert Selects(recs[0], key, k) <==> e.value.0 == k;
      } else {
        assert pairs == rest;
        assert !Selects(recs[0], key, k);
      }
    }
  }

  /** `d` groups records `recs` by field `key` with contents from field `name`: exactly
      the non-empty string keys the records carry, once each, each mapped to the list of
      those records' content fields in input order. */
  ghost predicate GroupedByName(d: Value, recs: seq<Value>, key: string, name: string)
  {
    && d.VDict?
    && (forall i, j :: 0 <= i < j < |d.entries| ==> d.entries[i].0 != d.entries[j].0)
    && (forall k :: k in Keys(d.entries) <==> SomeSelects(recs, key, k))
    && (forall i :: 0 <= i < |d.entries| ==>
          d.entries[i].1 == VList(ContentsUnder(recs, key, name, d.entries[i].0)))
  }

  /** For a string `content_attr`, the grouped dict of one list is that list's records
      grouped by name. */
  lemma GroupListByName(l: Value, key: string, name: string)
    requires GroupList(l, key, ByName(name)).Success?
    ensures GroupedByName(GroupList(l, key, ByName(name)).value, Iterate(l).value, key, name)
  {
    var recs := Iterate(l).value;
    var pairs := Contributions(recs, key, ByName(name)).value;
    var g := Group(pairs);
    GroupSpec(pairs);
    forall k
      ensures HasKey(pairs, k) <==> SomeSelects(recs, key, k)
    {
      if HasKey(pairs, k) {
        ContributionsSound(recs, key, name, k);
      }
      if SomeSelects(recs, key, k) {
        ContributionsComplete(recs, key, name, k);
      }
    }
    forall i | 0 <= i < |g|
      ensures g[i].1 == ContentsUnder(recs, key, name, g[i].0)
    {
      GetAt(g, i);
      ContributionsContents(recs, key, name, g[i].0);
    }
  }

  lemma {:induction false} GetAt(g: Groups, i: nat)
    requires UniqueKeys(g)
    requires i < |g|
    ensures Get(g, g[i].0) == g[i].1
  {
    if i > 0 {
      assert g[0].0 != g[i].0;
      GetAt(g[1..], i - 1);
    }
  }

  // ---------------------------------------------------------------------------
  // Both lists.

  /** `_l2d(l1, l2, key_attr, content_attr)`: a string `content_attr` groups single
      fields, a list groups sets of fields, anything else raises `NotImplementedError`.
      `l1` is grouped first. */
  function L2D(l1: Value, l2: Value, key: string, content: Value): (r: Result<(Value, Value)>)
    ensures r == Failure(NotImplementedError) <==> !content.VStr? && !content.VList?
    ensures r.Failure? ==> r.error == NotImplementedError || OperandError(r.error)
    ensures r.Success? ==> r.value.0.VDict? && r.value.1.VDict?
  {
    if !content.VStr? && !content.VList? then Failure(NotImplementedError)
    else
      var spec := if content.VStr? then ByName(content.s) else ByNames(content.items);
      GroupListErrors(l1, key, spec);
      GroupListErrors(l2, key, spec);
      var d1 :- GroupList(l1, key, spec);
      var d2 :- GroupList(l2, key, spec);
      Success((d1, d2))
  }

  /** Grouping one list raises only what subscripting, `len`, `in` and hashing raise. */
  lemma GroupListErrors(l: Value, key: string, spec: ContentSpec)
    ensures GroupList(l, key, spec).Failure? ==> OperandError(GroupList(l, key, spec).error)
  {
    var recs := Iterate(l);
    if recs.Success? {
      ContributionsErrors(recs.value, key, spec);
    }
  }

  lemma {:induction false} ContributionsErrors(recs: seq<Value>, key: string, spec: ContentSpec)
    ensures Contributions(recs, key, spec).Failure? ==> OperandError(Contributions(recs, key, spec).error)
  {
    if recs != [] {
      ContributionsErrors(recs[1..], key, spec);
      if spec.ByNames? {
        FieldValuesErrors(recs[0], spec.names);
      }
    }
  }

  lemma {:induction false} FieldValuesErrors(rec: Value, names: seq<Value>)
    ensures FieldValues(rec, names).Failure? ==> OperandError(FieldValues(rec, names).error)
  {
    if names != [] {
      FieldValuesErrors(rec, names[1..]);
    }
  }

  /** For a string `content_attr`, `_l2d` groups each list by name on its own. */
  lemma L2DByName(l1: Value, l2: Value, key: string, name: string)
    requires L2D(l1, l2, key, VStr(name)).Success?
    ensures var (d1, d2) := L2D(l1, l2, key, VStr(name)).value;
      && GroupedByName(d1, Iterate(l1).value, key, name)
      && GroupedByName(d2, Iterate(l2).value, key, name)
  {
    GroupListByName(l1, key, name);
    GroupListByName(l2, key, name);
  }
}

=== FILE: helpers.dfy ===
/** The general helpers the comparison pipeline relies on: batching a sequence into
    fixed-size groups, keying a list of records by one field, and reading and listing
    nested dict values in dot notation. */
module Helpers {
  import opened Wrappers
  import opened Values
  import Strings

  // ---------------------------------------------------------------------------
  // group_batcher

  /** `n` copies of `x`. */
  function Repeat(x: Value, n: nat): (r: seq<Value>)
    ensures |r| == n
    ensures forall i :: 0 <= i < n ==> r[i] == x
  {
    seq(n, _ => x)
  }

  /** The groups laid end to end. */
  function Flatten(gs: seq<seq<Value>>): seq<Value>
  {
    if gs == [] then [] else Flatten(gs[..|gs| - 1]) + gs[|gs| - 1]
  }

  /** The shape of a batching of `n` items into groups of `count`: `grps` groups, the
      last of which holds `rem` items when the division is not exact. */
  predicate Plan(n: nat, count: int, grps: int, rem: int)
  {
    && count > 0 && grps >= 0 && rem == n % count && 0 <= rem < count
    && (rem == 0 ==> n == grps * count)
    && (rem != 0 ==> grps >= 1 && n == (grps - 1) * count + rem)
    && (grps >= 1 ==> (grps - 1) * count < n)
  }

  /** Python's `-(-n // count)` for a positive `count` is the number of groups of `count`
      needed to hold `n` items, and `n % count` is what the last group holds when the
      division is not exact. */
  lemma CeilDiv(n: int, count: int)
    requires n >= 0 && count > 0
    ensures Plan(n, count, -((-n) / count), n % count)
  {
    var q := n / count;
    var rem := n % count;
    assert n == q * count + rem;
    if rem == 0 {
      assert -n == (-q) * count + 0;
      DivExact(-n, -q, 0, count);
    } else {
      assert -n == (-q - 1) * count + (count - rem);
      DivExact(-n, -q - 1, count - rem, count);
    }
    var grps := -((-n) / count);
    if grps >= 1 {
      MulAdd(grps - 1, 1, count);
    }
  }

  lemma MulNonneg(a: int, c: int)
    requires a >= 0 && c >= 0
    ensures a * c >= 0
  {
  }

  lemma MulAdd(a: int, b: int, c: int)
    ensures (a + b) * c == a * c + b * c
  {
  }

  lemma MulAtLeast(d: int, c: int)
    requires d >= 1 && c >= 0
    ensures d * c >= c
  {
    MulNonneg(d - 1, c);
    assert d * c == (d - 1) * c + c;
  }

  /** Euclidean division is determined by any quotient and remainder that fit. */
  lemma DivExact(x: int, q: int, b: int, c: int)
    requires c > 0 && 0 <= b < c && x == q * c + b
    ensures x / c == q
  {
    var q' := x / c;
    var b' := x % c;
    assert x == q' * c + b';
    assert (q - q') * c == b' - b;
    if q > q' {
      MulAtLeast(q - q', c);
    } else if q < q' {
      MulAtLeast(q' - q, c);
    }
  }

  /** What position `t` of the batched stream holds: the item, or `fill` past the end. */
  function FillAt(items: seq<Value>, fill: Value, t: nat): Value
  {
    if t < |items| then items[t] else fill
  }

  lemma FlattenAppend(gs: seq<seq<Value>>, g: seq<Value>)
    ensures Flatten(gs + [g]) == Flatten(gs) + g
  {
    assert (gs + [g])[..|gs|] == gs;
  }

  /** A stream read position by position is the items, then `fill` repeated. */
  lemma StreamIs(xs: seq<Value>, items: seq<Value>, fill: Value)
    requires |xs| >= |items|
    requires forall t :: 0 <= t < |xs| ==> xs[t] == FillAt(items, fill, t)
    ensures xs == items + Repeat(fill, |xs| - |items|)
  {
  }

  /** `xs` holds the batched stream from its start: the items, then `fill`. */
  predicate Streamed(xs: seq<Value>, items: seq<Value>, fill: Value)
  {
    forall t :: 0 <= t < |xs| ==> xs[t] == FillAt(items, fill, t)
  }

  lemma StreamedAppend(xs: seq<Value>, group: seq<Value>, items: seq<Value>, fill: Value)
    requires Streamed(xs, items, fill)
    requires forall k :: 0 <= k < |group| ==> group[k] == FillAt(items, fill, |xs| + k)
    ensures Streamed(xs + group, items, fill)
  {
    forall t | 0 <= t < |xs + group|
      ensures (xs + group)[t] == FillAt(items, fill, t)
    {
      if t >= |xs| {
        assert (xs + group)[t] == group[t - |xs|];
      }
    }
  }

  /** The size of group `j` out of `grps`: `count`, or `rem` for a cut last group. */
  function GroupSize(j: int, grps: int, rem: int, count: int, cut: bool): int
  {
    if cut && j + 1 == grps then rem else count
  }

  /** The groups so far have their sizes. */
  predicate Sized(gs: seq<seq<Value>>, grps: int, rem: int, count: int, cut: bool)
  {
    forall j :: 0 <= j < |gs| ==> |gs[j]| == GroupSize(j, grps, rem, count, cut)
  }

  lemma SizedAppend(gs: seq<seq<Value>>, g: seq<Value>, grps: int, rem: int, count: int, cut: bool)
    requires Sized(gs, grps, rem, count, cut)
    requires |g| == GroupSize(|gs|, grps, rem, count, cut)
    ensures Sized(gs + [g], grps, rem, count, cut)
  {
    forall j | 0 <= j < |gs| + 1
      ensures |(gs + [g])[j]| == GroupSize(j, grps, rem, count, cut)
    {
      if j < |gs| {
        assert (gs + [g])[j] == gs[j];
      }
    }
  }

  /** One group: `[next(itr, fill) for i in range(num)]` with the iterator at `pos`. */
  method TakeGroup(items: seq<Value>, pos: nat, num: nat, fill: Value) returns (group: seq<Value>, pos': nat)
    requires pos <= |items|
    ensures |group| == num
    ensures forall k :: 0 <= k < num ==> group[k] == FillAt(items, fill, pos + k)
    ensures pos' == if pos + num <= |items| then pos + num else |items|
  {
    group := [];
    pos' := pos;
    var k := 0;
    while k < num
      invariant 0 <= k <= num
      invariant |group| == k
      invariant forall k' :: 0 <= k' < k ==> group[k'] == FillAt(items, fill, pos + k')
      invariant pos' == if pos + k <= |items| then pos + k else |items|
    {
      if pos' < |items| {
        group := group + [items[pos']];
        pos' := pos' + 1;
      } else {
        group := group + [fill];
      }
      k := k + 1;
    }
  }

  /** The batched groups: group count `grps`, every group of `count` items but a
      cut last group of `len % count` items, and the groups read position by position
      give the items followed by `fill`. */
  predicate Batched(gs: seq<seq<Value>>, items: seq<Value>, count: int, fill: Value)
    requires count > 0
  {
    && |items| <= |gs| * count
    && (gs != [] ==> (|gs| - 1) * count < |items|)
    && (forall j :: 0 <= j < |gs| - 1 ==> |gs[j]| == count)
    && (Truthy(fill) ==> (forall j :: 0 <= j < |gs| ==> |gs[j]| == count)
                         && Flatten(gs) == items + Repeat(fill, |gs| * count - |items|))
    && (!Truthy(fill) ==> Flatten(gs) == items)
    && (!Truthy(fill) && |items| % count != 0 ==> |gs[|gs| - 1]| == |items| % count)
  }

  /** `group_batcher(items, list, count, fill)`, with every group the generator yields
      collected in order. The group count is `-(-len // count)` (zero or negative for a
      negative `count`, `ZeroDivisionError` for zero); the last group is cut to
      `len % count` items when `fill` is falsy and the division is not exact; otherwise
      every group has `count` items and an exhausted iterator yields `fill`. */
  method GroupBatcher(items: seq<Value>, count: int, fill: Value) returns (r: Result<seq<seq<Value>>>)
    ensures r == Failure(ZeroDivisionError) <==> count == 0
    ensures count < 0 ==> r == Success([])
    ensures count > 0 ==> r.Success? && Batched(r.value, items, count, fill)
  {
    if count == 0 {
      return Failure(ZeroDivisionError);
    }
    if count < 0 {
      // `-n // count` floors a non-negative quotient, so `grps <= 0` and `range(grps)` is empty.
      return Success([]);
    }
    var gs := BatchPositive(items, count, fill);
    return Success(gs);
  }

  /** The loop state after `i` of `grps` groups: the groups so far have their sizes,
      read position by position they give the batched stream, and the iterator stands
      at the start of the next group. */
  predicate BatchInv(groups: seq<seq<Value>>, pos: nat, i: int, items: seq<Value>, count: int,
                     fill: Value, grps: int, rem: int, cut: bool)
  {
    && 0 <= i <= grps
    && |groups| == i
    && Sized(groups, grps, rem, count, cut)
    && |Flatten(groups)| == (if cut && i == grps then |items| else i * count)
    && Streamed(Flatten(groups), items, fill)
    && (i < grps ==> pos == i * count && pos < |items|)
  }

  /** The loop starts with no group and the iterator at the first item. */
  lemma BatchStart(items: seq<Value>, count: int, fill: Value, grps: int, rem: int, cut: bool)
    requires Plan(|items|, count, grps, rem) && cut == (!Truthy(fill) && rem != 0)
    ensures BatchInv([], 0, 0, items, count, fill, grps, rem, cut)
  {
    if grps >= 1 {
      MulNonneg(grps - 1, count);
    }
  }

  /** Appending the next group keeps the loop state. */
  lemma BatchStep(groups: seq<seq<Value>>, pos: nat, i: int, items: seq<Value>, count: int,
                  fill: Value, grps: int, rem: int, cut: bool, group: seq<Value>, pos': nat)
    requires Plan(|items|, count, grps, rem) && cut == (!Truthy(fill) && rem != 0)
    requires BatchInv(groups, pos, i, items, count, fill, grps, rem, cut) && i < grps
    requires |group| == GroupSize(i, grps, rem, count, cut)
    requires forall k :: 0 <= k < |group| ==> group[k] == FillAt(items, fill, pos + k)
    requires pos' == if pos + |group| <= |items| then pos + |group| else |items|
    ensures BatchInv(groups + [group], pos', i + 1, items, count, fill, grps, rem, cut)
  {
    FlattenAppend(groups, group);
    StreamedAppend(Flatten(groups), group, items, fill);
    SizedAppend(groups, group, grps, rem, count, cut);
    MulAdd(i, 1, count);
    if i + 1 < grps {
      MulNonneg(grps - 2 - i, count);
      MulAdd(i + 1, grps - 2 - i, count);
    }
  }

  /** The final loop state is the batched result. */
  lemma BatchDone(groups: seq<seq<Value>>, pos: nat, items: seq<Value>, count: int,
                  fill: Value, grps: int, rem: int, cut: bool)
    requires Plan(|items|, count, grps, rem) && cut == (!Truthy(fill) && rem != 0)
    requires BatchInv(groups, pos, grps, items, count, fill, grps, rem, cut)
    ensures Batched(groups, items, count, fill)
  {
    StreamIs(Flatten(groups), items, fill);
    if grps >= 1 {
      MulAdd(grps - 1, 1, count);
    }
  }

  /** The group count `-(-n // count)` and the remainder `n % count`. */
  method Layout(n: nat, count: int) returns (grps: int, rem: int)
    requires count > 0
    ensures Plan(n, count, grps, rem)
  {
    grps := -(-(n as int) / count);
    rem := n % count;
    CeilDiv(n, count);
  }

  /** The generator's loop for a positive `count`. */
  method BatchPositive(items: seq<Value>, count: int, fill: Value) returns (groups: seq<seq<Value>>)
    requires count > 0
    ensures Batched(groups, items, count, fill)
  {
    var grps, rem := Layout(|items|, count);
    var cut := !Truthy(fill) && rem != 0;
    groups := [];
    var pos: nat := 0;
    var i := 0;
    BatchStart(items, count, fill, grps, rem, cut);
    while i < grps
      invariant BatchInv(groups, pos, i, items, count, fill, grps, rem, cut)
      decreases grps - i
    {
      var num := if cut && i + 1 == grps then rem else count;
      var group, pos' := TakeGroup(items, pos, num, fill);
      BatchStep(groups, pos, i, items, count, fill, grps, rem, cut, group, pos');
      groups, pos, i := groups + [group], pos', i + 1;
    }
    BatchDone(groups, pos, items, count, fill, grps, rem, cut);
  }

  // ---------------------------------------------------------------------------
  // list_to_dict

  /** A Python dict whose keys may be any hashable value, in insertion order. */
  type Mapping = seq<(Value, Value)>

  /** `m[k] = v`: an existing key keeps its position and takes the new value; a new key
      goes last. */
  function Put(m: Mapping, k: Value, v: Value): Mapping
  {
    if m == [] then [(k, v)]
    else if m[0].0 == k then [(k, v)] + m[1..]
    else [m[0]] + Put(m[1..], k, v)
  }

  /** After `m[k] = v`, `k` reads `v` and every other key reads as before. */
  lemma {:induction false} PutGet(m: Mapping, k: Value, v: Value, k': Value)
    ensures Lookup(Put(m, k, v), k') == if k' == k then Some(v) else Lookup(m, k')
  {
    if m != [] && m[0].0 != k {
      PutGet(m[1..], k, v, k');
    }
  }

  /** `m[k] = v` adds `k` at the end of the keys when it is new, and nothing else. */
  lemma {:induction false} PutKeys(m: Mapping, k: Value, v: Value)
    ensures Keys(Put(m, k, v)) == if k in Keys(m) then Keys(m) else Keys(m) + [k]
  {
    if m != [] {
      KeysCons(m[0], m[1..]);
      assert m == [m[0]] + m[1..];
      if m[0].0 == k {
        KeysCons((k, v), m[1..]);
      } else {
        PutKeys(m[1..], k, v);
        KeysCons(m[0], Put(m[1..], k, v));
      }
    }
  }

  /** `m[k] = v` never creates a second entry for a key. */
  lemma {:induction false} PutUnique(m: Mapping, k: Value, v: Value)
    requires UniqueKeys(m)
    ensures UniqueKeys(Put(m, k, v))
  {
    if m != [] {
      UniqueTail(m);
      if m[0].0 == k {
        UniqueCons((k, v), m[1..]);
      } else {
        PutUnique(m[1..], k, v);
        PutKeys(m[1..], k, v);
        UniqueCons(m[0], Put(m[1..], k, v));
      }
    }
  }

  /** The entries of a dict without the first entry under `key`. */
  function Remove(es: seq<(string, Value)>, key: string): (r: seq<(string, Value)>)
    ensures forall k :: k != key ==> Lookup(r, k) == Lookup(es, k)
    ensures (forall i, j :: 0 <= i < j < |es| ==> es[i].0 != es[j].0) ==> key !in Keys(r)
  {
    if es == [] then []
    else if es[0].0 == key then
      assert forall j :: 0 <= j < |es[1..]| ==> es[1..][j] == es[j + 1];
      es[1..]
    else
      var rest := Remove(es[1..], key);
      assert Keys([es[0]] + rest) == [es[0].0] + Keys(rest);
      [es[0]] + rest
  }

  /** `rec.pop(key)`: the value under `key` and the dict left without it. Only dicts
      take a string argument to `pop` (`TypeError` for lists and sets); other values
      have no `pop` (`AttributeError`). */
  function Pop(rec: Value, key: string): (r: Result<(Value, Value)>)
    ensures r.Success? <==> rec.VDict? && key in Keys(rec.entries)
    ensures r.Success? ==> Some(r.value.0) == Lookup(rec.entries, key)
                           && r.value.1 == VDict(Remove(rec.entries, key))
    ensures r == Failure(AttributeError) <==> rec.VNone? || rec.VBool? || rec.VInt? || rec.VStr?
  {
    match rec
    case VDict(es) =>
      if key in Keys(es) then Success((Lookup(es, key).value, VDict(Remove(es, key))))
      else Failure(KeyError)
    case VList(_) => Failure(TypeError)
    case VSet(_) => Failure(TypeError)
    case _ => Failure(AttributeError)
  }

  /** The loop of `list_to_dict` from record `recs[0]` on, into `acc`. */
  function KeyAll(recs: seq<Value>, key: string, acc: Mapping): Result<Mapping>
    decreases |recs|
  {
    if recs == [] then Success(acc)
    else
      var (k, rest) :- Pop(recs[0], key);
      if !Hashable(k) then Failure(TypeError)
      else KeyAll(recs[1..], key, Put(acc, k, rest))
  }

  /** A record `list_to_dict` can key: a dict holding a hashable value under `key`. */
  predicate Keyable(rec: Value, key: string)
  {
    rec.VDict? && Lookup(rec.entries, key).Some? && Hashable(Lookup(rec.entries, key).value)
  }

  /** `list_to_dict(lst, key)`. */
  function ListToDict(lst: Value, key: string): (r: Result<Mapping>)
    ensures r.Success? <==> Iterate(lst).Success? && forall i :: 0 <= i < |Iterate(lst).value| ==> Keyable(Iterate(lst).value[i], key)
  {
    var recs :- Iterate(lst);
    KeyAllSucceeds(recs, key, []);
    KeyAll(recs, key, [])
  }

  lemma {:induction false} KeyAllSucceeds(recs: seq<Value>, key: string, acc: Mapping)
    ensures KeyAll(recs, key, acc).Success? <==> forall i :: 0 <= i < |recs| ==> Keyable(recs[i], key)
    decreases |recs|
  {
    if recs != [] {
      var p := Pop(recs[0], key);
      if p.Success? && Hashable(p.value.0) {
        KeyAllSucceeds(recs[1..], key, Put(acc, p.value.0, p.value.1));
        assert forall i :: 0 < i < |recs| ==> recs[i] == recs[1..][i - 1];
      }
    }
  }

  /** The record stored under `k`: the last record whose `key` value is `k`, with that
      field removed. */
  function LastWith(recs: seq<Value>, key: string, k: Value): Option<Value>
  {
    if recs == [] then None
    else
      var later := LastWith(recs[1..], key, k);
      if later.Some? then later
      else if recs[0].VDict? && Lookup(recs[0].entries, key) == Some(k) then
        Some(VDict(Remove(recs[0].entries, key)))
      else None
  }

  lemma {:induction false} KeyAllGet(recs: seq<Value>, key: string, acc: Mapping, k: Value)
    requires KeyAll(recs, key, acc).Success?
    ensures Lookup(KeyAll(recs, key, acc).value, k) == LastWith(recs, key, k).OrElse(Lookup(acc, k))
    decreases |recs|
  {
    if recs != [] {
      var (k0, rest) := Pop(recs[0], key).value;
      PutGet(acc, k0, rest, k);
      KeyAllGet(recs[1..], key, Put(acc, k0, rest), k);
    }
  }

  lemma {:induction false} KeyAllUnique(recs: seq<Value>, key: string, acc: Mapping)
    requires KeyAll(recs, key, acc).Success?
    requires UniqueKeys(acc)
    ensures UniqueKeys(KeyAll(recs, key, acc).value)
    decreases |recs|
  {
    if recs != [] {
      var (k0, rest) := Pop(recs[0], key).value;
      PutUnique(acc, k0, rest);
      KeyAllUnique(recs[1..], key, Put(acc, k0, rest));
    }
  }

  /** `list_to_dict` keys each record once by its `key` value: the result has one entry
      per distinct value, holding the last record with that value, minus the field. */
  lemma ListToDictSpec(lst: Value, key: string, k: Value)
    requires ListToDict(lst, key).Success?
    ensures UniqueKeys(ListToDict(lst, key).value)
    ensures Lookup(ListToDict(lst, key).value, k) == LastWith(Iterate(lst).value, key, k)
  {
    var recs := Iterate(lst).value;
    KeyAllUnique(recs, key, []);
    KeyAllGet(recs, key, [], k);
  }

  // ---------------------------------------------------------------------------
  // dot_get and to_dot

  /** The value at a path of keys through nested dicts (`None` when a key is missing or
      the path runs through a value that is not a dict). The first entry under a key is
      the one a Python dict holds. */
  function At(v: Value, path: seq<string>): Option<Value>
    decreases |path|
  {
    if path == [] then Some(v)
    else if v.VDict? && Lookup(v.entries, path[0]).Some? then At(Lookup(v.entries, path[0]).value, path[1..])
    else None
  }

  /** `dict.get(acc, seg)`: `TypeError` when `acc` is not a dict. */
  function DictGet(acc: Value, seg: string): (r: Result<Value>)
    ensures r.Success? <==> acc.VDict?
  {
    if acc.VDict? then Success(Lookup(acc.entries, seg).GetOr(VNone)) else Failure(TypeError)
  }

  /** `reduce(dict.get, segs, acc)`: reads what `At` finds, and `None` wherever `At` finds
      nothing (a missing key, then any further key, raises `TypeError`). */
  function Reduce(segs: seq<string>, acc: Value): (r: Result<Value>)
    ensures r.Failure? ==> r.error == TypeError
    ensures r.GetOr(VNone) == At(acc, segs).GetOr(VNone)
    decreases |segs|
  {
    if segs == [] then Success(acc)
    else
      var next :- DictGet(acc, segs[0]);
      Reduce(segs[1..], next)
  }

  /** `dot_get(dot_not, data)`: the `TypeError` of reaching a non-dict is caught and
      becomes `None`, so it reads the value at the dot-separated path, or `None`. */
  function DotGet(path: string, data: Value): (r: Value)
    ensures r == At(data, Strings.Split(path, '.')).GetOr(VNone)
  {
    match Reduce(Strings.Split(path, '.'), data)
    case Success(v) => v
    case Failure(_) => VNone
  }

  /** `[k] + p` for each path `p`. */
  function Prefix(k: string, ps: seq<seq<string>>): (r: seq<seq<string>>)
    ensures |r| == |ps|
    ensures forall j :: 0 <= j < |ps| ==> r[j] == [k] + ps[j]
  {
    seq(|ps|, j requires 0 <= j < |ps| => [k] + ps[j])
  }

  /** `iter_dot(v, [], [])`: the key paths to every value that is not a dict, in the
      order the nested dicts list them. An empty nested dict contributes no path. */
  function Paths(v: Value): seq<seq<string>>
    decreases v, 1
  {
    if v.VDict? then EntryPaths(v, 0) else []
  }

  /** The paths under entries `i..` of dict `d`. */
  function EntryPaths(d: Value, i: nat): seq<seq<string>>
    requires d.VDict? && i <= |d.entries|
    decreases d, 0, |d.entries| - i
  {
    if i == |d.entries| then []
    else
      var (k, v) := d.entries[i];
      var here := if v.VDict? then Prefix(k, Paths(v)) else [[k]];
      here + EntryPaths(d, i + 1)
  }

  /** `to_dot(data)`: each path joined with dots. On dot-safe data, reading a listed dot
      path back with `dot_get` gives the value that is not a dict at that path. */
  function ToDot(data: Value): (r: seq<string>)
    ensures |r| == |Paths(data)|
    ensures DotSafe(data) ==> forall j :: 0 <= j < |r| ==>
      && Some(DotGet(r[j], data)) == At(data, Paths(data)[j])
      && !DotGet(r[j], data).VDict?
    ensures DotSafe(data) ==> NoRepeats(r)
  {
    var ps := Paths(data);
    var r := seq(|ps|, j requires 0 <= j < |ps| => Strings.Join(ps[j], "."));
    assert DotSafe(data) ==> forall j :: 0 <= j < |r| ==>
      Some(DotGet(r[j], data)) == At(data, Paths(data)[j]) && !DotGet(r[j], data).VDict? by {
      if DotSafe(data) {
        forall j | 0 <= j < |r|
          ensures Some(DotGet(r[j], data)) == At(data, Paths(data)[j]) && !DotGet(r[j], data).VDict?
        {
          JoinedPathRoundTrip(data, j);
        }
      }
    }
    assert DotSafe(data) ==> NoRepeats(r) by {
      if DotSafe(data) {
        forall a, b | 0 <= a < b < |r|
          ensures r[a] != r[b]
        {
          JoinedPathsDistinct(data, a, b);
        }
      }
    }
    r
  }

  /** Every dict has distinct keys, at every level: what a Python dict guarantees. */
  ghost predicate DistinctKeys(v: Value)
    decreases v
  {
    v.VDict? ==> UniqueKeys(v.entries) && forall i :: 0 <= i < |v.entries| ==> DistinctKeys(v.entries[i].1)
  }

  /** No dict key, at any level, contains a dot. */
  ghost predicate DotFree(v: Value)
    decreases v
  {
    v.VDict? ==> forall i :: 0 <= i < |v.entries| ==> '.' !in v.entries[i].0 && DotFree(v.entries[i].1)
  }

  /** Page data as `to_dot` and `dot_get` expect it: distinct keys that contain no dot. */
  ghost predicate DotSafe(v: Value)
  {
    DistinctKeys(v) && DotFree(v)
  }

  lemma {:induction false} LookupUnique(es: seq<(string, Value)>, i: nat)
    requires i < |es|
    requires UniqueKeys(es)
    ensures Lookup(es, es[i].0) == Some(es[i].1)
  {
    if i > 0 {
      assert es[0].0 != es[i].0;
      LookupUnique(es[1..], i - 1);
    }
  }

  /** Every path `to_dot` lists is non-empty and leads to a value that is not a dict; on
      data whose keys are dot-free, it is made of dot-free keys. */
  lemma {:induction false} PathsSound(v: Value, j: nat)
    requires DistinctKeys(v)
    requires j < |Paths(v)|
    ensures var p := Paths(v)[j];
      && |p| >= 1
      && (DotFree(v) ==> forall c :: 0 <= c < |p| ==> '.' !in p[c])
      && At(v, p).Some? && !At(v, p).value.VDict?
    decreases v, 1
  {
    EntryPathsSound(v, 0, j);
  }

  lemma {:induction false} EntryPathsSound(d: Value, i: nat, j: nat)
    requires d.VDict? && DistinctKeys(d) && i <= |d.entries|
    requires j < |EntryPaths(d, i)|
    ensures var p := EntryPaths(d, i)[j];
      && |p| >= 1
      && (DotFree(d) ==> forall c :: 0 <= c < |p| ==> '.' !in p[c])
      && At(d, p).Some? && !At(d, p).value.VDict?
    decreases d, 0, |d.entries| - i
  {
    var (k, w) := d.entries[i];
    var here := if w.VDict? then Prefix(k, Paths(w)) else [[k]];
    var rest := EntryPaths(d, i + 1);
    assert EntryPaths(d, i) == here + rest;
    if j < |here| {
      LookupUnique(d.entries, i);
      if w.VDict? {
        PathsSound(w, j);
        PathCons(d, i, Paths(w)[j]);
      } else {
        PathCons(d, i, []);
      }
      IndexAppend(here, rest, j);
    } else {
      EntryPathsSound(d, i + 1, j - |here|);
      IndexAppend(here, rest, j);
    }
  }

  lemma IndexAppend<T>(a: seq<T>, b: seq<T>, j: nat)
    requires j < |a| + |b|
    ensures (a + b)[j] == if j < |a| then a[j] else b[j - |a|]
  {
  }

  /** The path through entry `i` of a dict, then on along `q`. */
  lemma PathCons(d: Value, i: nat, q: seq<string>)
    requires d.VDict? && i < |d.entries|
    requires Lookup(d.entries, d.entries[i].0) == Some(d.entries[i].1)
    requires DotFree(d) ==> forall c :: 0 <= c < |q| ==> '.' !in q[c]
    requires At(d.entries[i].1, q).Some? && !At(d.entries[i].1, q).value.VDict?
    ensures var p := [d.entries[i].0] + q;
      && (DotFree(d) ==> forall c :: 0 <= c < |p| ==> '.' !in p[c])
      && At(d, p) == At(d.entries[i].1, q)
  {
    var p := [d.entries[i].0] + q;
    assert p[1..] == q;
    if DotFree(d) {
      forall c | 0 <= c < |p|
        ensures '.' !in p[c]
      {
        if c > 0 {
          assert p[c] == q[c - 1];
        }
      }
    }
  }

  /** Every path listed under entries `i..` starts with the key of one of them. */
  ghost predicate HeadsFrom(d: Value, i: nat, ps: seq<seq<string>>)
    requires d.VDict? && i <= |d.entries|
  {
    forall j :: 0 <= j < |ps| ==> |ps[j]| >= 1 && ps[j][0] in Keys(d.entries[i..])
  }

  lemma {:induction false} EntryPathsHeads(d: Value, i: nat)
    requires d.VDict? && i <= |d.entries|
    ensures HeadsFrom(d, i, EntryPaths(d, i))
    decreases |d.entries| - i
  {
    if i < |d.entries| {
      var (k, w) := d.entries[i];
      var here := if w.VDict? then Prefix(k, Paths(w)) else [[k]];
      var rest := EntryPaths(d, i + 1);
      EntryPathsHeads(d, i + 1);
      assert EntryPaths(d, i) == here + rest;
      assert d.entries[i..] == [d.entries[i]] + d.entries[i + 1..];
      KeysCons(d.entries[i], d.entries[i + 1..]);
      forall j | 0 <= j < |here + rest|
        ensures |(here + rest)[j]| >= 1 && (here + rest)[j][0] in Keys(d.entries[i..])
      {
        IndexAppend(here, rest, j);
      }
    }
  }

  /** In data whose dicts have distinct keys, `iter_dot` lists each path once. */
  lemma {:induction false} PathsNoRepeats(v: Value)
    requires DistinctKeys(v)
    ensures NoRepeats(Paths(v))
    decreases v, 1
  {
    if v.VDict? {
      EntryPathsNoRepeats(v, 0);
    }
  }

  lemma {:induction false} EntryPathsNoRepeats(d: Value, i: nat)
    requires d.VDict? && DistinctKeys(d) && i <= |d.entries|
    ensures NoRepeats(EntryPaths(d, i))
    decreases d, 0, |d.entries| - i
  {
    if i < |d.entries| {
      var (k, w) := d.entries[i];
      var here := if w.VDict? then Prefix(k, Paths(w)) else [[k]];
      var rest := EntryPaths(d, i + 1);
      assert EntryPaths(d, i) == here + rest;
      if w.VDict? {
        PathsNoRepeats(w);
        PrefixNoRepeats(k, Paths(w));
      }
      EntryPathsNoRepeats(d, i + 1);
      EntryPathsHeads(d, i + 1);
      UniqueTail(d.entries[i..]);
      assert d.entries[i..][1..] == d.entries[i + 1..];
      AppendNoRepeats(here, rest, k);
    }
  }

  lemma PrefixNoRepeats(k: string, ps: seq<seq<string>>)
    requires NoRepeats(ps)
    ensures NoRepeats(Prefix(k, ps))
  {
    var r := Prefix(k, ps);
    forall a, b | 0 <= a < b < |r|
      ensures r[a] != r[b]
    {
      assert r[a][1..] == ps[a] && r[b][1..] == ps[b];
    }
  }

  /** Two repeat-free lists whose paths start with different keys join without repeats. */
  lemma AppendNoRepeats(here: seq<seq<string>>, rest: seq<seq<string>>, k: string)
    requires NoRepeats(here) && NoRepeats(rest)
    requires forall j :: 0 <= j < |here| ==> |here[j]| >= 1 && here[j][0] == k
    requires forall j :: 0 <= j < |rest| ==> |rest[j]| >= 1 && rest[j][0] != k
    ensures NoRepeats(here + rest)
  {
    var r := here + rest;
    forall a, b | 0 <= a < b < |r|
      ensures r[a] != r[b]
    {
      IndexAppend(here, rest, a);
      IndexAppend(here, rest, b);
    }
  }

  /** Every path to a value that is not a dict is one `to_dot` lists. */
  lemma {:induction false} PathsComplete(v: Value, p: seq<string>)
    requires |p| >= 1 && At(v, p).Some? && !At(v, p).value.VDict?
    ensures p in Paths(v)
    decreases v, 1
  {
    var w := Lookup(v.entries, p[0]).value;
    var i :| 0 <= i < |v.entries| && v.entries[i] == (p[0], w);
    EntryPathsHas(v, 0, i, p);
  }

  lemma {:induction false} EntryPathsHas(d: Value, i': nat, i: nat, p: seq<string>)
    requires d.VDict? && i' <= i < |d.entries|
    requires |p| >= 1 && d.entries[i].0 == p[0]
    requires At(d.entries[i].1, p[1..]).Some? && !At(d.entries[i].1, p[1..]).value.VDict?
    ensures p in EntryPaths(d, i')
    decreases d, 0, i - i'
  {
    var (k, w) := d.entries[i'];
    var here := if w.VDict? then Prefix(k, Paths(w)) else [[k]];
    assert EntryPaths(d, i') == here + EntryPaths(d, i' + 1);
    if i' < i {
      EntryPathsHas(d, i' + 1, i, p);
    } else if w.VDict? {
      PathsComplete(w, p[1..]);
      var j :| 0 <= j < |Paths(w)| && Paths(w)[j] == p[1..];
      assert here[j] == p;
    } else {
      assert p == [k];
    }
  }

  /** Reading back a listed path, joined with dots, with `dot_get` gives the non-dict
      value at that path. */
  lemma JoinedPathRoundTrip(data: Value, j: nat)
    requires DotSafe(data)
    requires j < |Paths(data)|
    ensures Some(DotGet(Strings.Join(Paths(data)[j], "."), data)) == At(data, Paths(data)[j])
    ensures !DotGet(Strings.Join(Paths(data)[j], "."), data).VDict?
  {
    var p := Paths(data)[j];
    PathsSound(data, j);
    Strings.SplitJoin(p, '.');
  }

  /** Distinct listed paths of dot-safe data join to distinct dotted strings. */
  lemma JoinedPathsDistinct(data: Value, a: nat, b: nat)
    requires DotSafe(data)
    requires a < b < |Paths(data)|
    ensures Strings.Join(Paths(data)[a], ".") != Strings.Join(Paths(data)[b], ".")
  {
    PathsNoRepeats(data);
    PathsSound(data, a);
    PathsSound(data, b);
    Strings.SplitJoin(Paths(data)[a], '.');
    Strings.SplitJoin(Paths(data)[b], '.');
  }
}

=== FILE: strings.dfy ===
/** Python string operations the modelled code relies on: `sep.join`, `str.split`,
    `str(int)` and the substring test `needle in hay`. */
module Strings {

  /** `sep.join(parts)`. */
  function Join(parts: seq<string>, sep: string): string
  {
    if |parts| == 0 then ""
    else if |parts| == 1 then parts[0]
    else parts[0] + sep + Join(parts[1..], sep)
  }

  /** Position of the first occurrence of `c` in `s`. */
  function IndexOf(s: string, c: char): (i: nat)
    requires c in s
    ensures i < |s| && s[i] == c
    ensures c !in s[..i]
  {
    if s[0] == c then 0
    else
      assert c in s[1..] by {
        var j :| 0 <= j < |s| && s[j] == c;
        assert s[1..][j - 1] == c;
      }
      var i := 1 + IndexOf(s[1..], c);
      assert s[..i] == [s[0]] + s[1..][..i - 1];
      i
  }

  /** `s.split(c)` for a one-character separator: the pieces between separators,
      always at least one (`"".split(".") == [""]`). */
  function Split(s: string, c: char): (r: seq<string>)
    ensures |r| >= 1
    ensures forall i :: 0 <= i < |r| ==> c !in r[i]
    decreases |s|
  {
    if c !in s then [s]
    else
      var i := IndexOf(s, c);
      [s[..i]] + Split(s[i + 1..], c)
  }

  /** Splitting and re-joining on the same separator gives back the string. */
  lemma {:induction false} JoinSplit(s: string, c: char)
    ensures Join(Split(s, c), [c]) == s
    decreases |s|
  {
    if c in s {
      var i := IndexOf(s, c);
      var tail := s[i + 1..];
      var rest := Split(tail, c);
      JoinSplit(tail, c);
      assert Split(s, c) == [s[..i]] + rest;
      JoinCons(s[..i], rest, [c]);
      Around(s, i);
    }
  }

  lemma JoinCons(p: string, rest: seq<string>, sep: string)
    requires |rest| >= 1
    ensures Join([p] + rest, sep) == p + sep + Join(rest, sep)
  {
    assert ([p] + rest)[1..] == rest;
  }

  lemma Around(s: string, i: nat)
    requires i < |s|
    ensures s == s[..i] + [s[i]] + s[i + 1..]
  {
  }

  /** Joining pieces that contain no separator and splitting again gives back the pieces. */
  lemma {:induction false} SplitJoin(parts: seq<string>, c: char)
    requires |parts| >= 1
    requires forall i :: 0 <= i < |parts| ==> c !in parts[i]
    ensures Split(Join(parts, [c]), c) == parts
  {
    if |parts| > 1 {
      var s := Join(parts, [c]);
      var tail := Join(parts[1..], [c]);
      assert s == parts[0] + [c] + tail;
      assert s[|parts[0]|] == c;
      assert s[..|parts[0]|] == parts[0];
      assert c in s;
      var i := IndexOf(s, c);
      assert i == |parts[0]|;
      assert s[i + 1..] == tail;
      SplitJoin(parts[1..], c);
    }
  }

  /** `str(n)` for a non-negative integer: its decimal digits. */
  function NatToString(n: nat): (r: string)
    ensures |r| >= 1
    ensures forall i :: 0 <= i < |r| ==> '0' <= r[i] <= '9'
  {
    var d := ['0' + (n % 10) as char];
    if n < 10 then d else NatToString(n / 10) + d
  }

  /** `str(n)` for any integer: a leading `-` for negative values. */
  function IntToString(n: int): (r: string)
    ensures |r| >= 1
    ensures '.' !in r
    ensures (r[0] == '-') <==> n < 0
  {
    if n < 0 then "-" + NatToString(-n) else NatToString(n)
  }

  /** Python's `needle in hay` on strings. */
  predicate Occurs(needle: string, hay: string)
    decreases |hay|
  {
    needle <= hay || (|hay| > 0 && Occurs(needle, hay[1..]))
  }
}

=== FILE: values.dfy ===
/** Python runtime values as the modelled code sees them, and the built-in operations
    on them (truthiness, `len`, iteration, subscription, `in`, `set(...)`, `''.join`)
    with the exceptions each raises. */
module Values {
  import opened Wrappers
  import Strings

  /** A Python value. `VSet` records a set's elements in its iteration order (no
      duplicates); `VDict` records a dict's entries in insertion order. Dict keys are
      strings: the compared data is JSON-decoded page data. */
  datatype Value =
    | VNone
    | VBool(b: bool)
    | VInt(i: int)
    | VStr(s: string)
    | VList(items: seq<Value>)
    | VSet(elems: seq<Value>)
    | VDict(entries: seq<(string, Value)>)

  /** A dict key or list index as it appears in a diff location. */
  datatype Key = KStr(name: string) | KInt(index: int)

  /** `str(k)`. */
  function KeyStr(k: Key): string
  {
    match k
    case KStr(s) => s
    case KInt(n) => Strings.IntToString(n)
  }

  /** The key as a Python value. */
  function KeyValue(k: Key): Value
  {
    match k
    case KStr(s) => VStr(s)
    case KInt(n) => VInt(n)
  }

  /** Python truthiness: `None`, `False`, `0` and empty containers are false. */
  predicate Truthy(v: Value)
  {
    match v
    case VNone => false
    case VBool(b) => b
    case VInt(i) => i != 0
    case VStr(s) => s != ""
    case VList(xs) => xs != []
    case VSet(xs) => xs != []
    case VDict(es) => es != []
  }

  /** `a or b`: the first operand when it is truthy, the second otherwise. */
  function Or(a: Value, b: Value): (r: Value)
    ensures Truthy(a) ==> r == a
    ensures !Truthy(a) ==> r == b
  {
    if Truthy(a) then a else b
  }

  /** Whether `hash(v)` succeeds: lists, dicts and sets are unhashable. */
  predicate Hashable(v: Value)
  {
    !(v.VList? || v.VSet? || v.VDict?)
  }

  /** `len(v)`. */
  function Len(v: Value): (r: Result<nat>)
    ensures r.Success? <==> (v.VStr? || v.VList? || v.VSet? || v.VDict?)
    ensures r.Failure? ==> r.error == TypeError
  {
    match v
    case VStr(s) => Success(|s|)
    case VList(xs) => Success(|xs|)
    case VSet(xs) => Success(|xs|)
    case VDict(es) => Success(|es|)
    case _ => Failure(TypeError)
  }

  /** The single-character strings of `s`, which is what iterating a string yields. */
  function Chars(s: string): (r: seq<Value>)
    ensures |r| == |s|
    ensures forall i :: 0 <= i < |r| ==> r[i] == VStr([s[i]])
  {
    seq(|s|, i requires 0 <= i < |s| => VStr([s[i]]))
  }

  /** The keys of an entry list (a dict's entries), in insertion order. */
  function Keys<K, V>(es: seq<(K, V)>): (r: seq<K>)
    ensures |r| == |es|
    ensures forall i :: 0 <= i < |es| ==> r[i] == es[i].0
  {
    seq(|es|, i requires 0 <= i < |es| => es[i].0)
  }

  /** No key appears in two entries: what every Python dict guarantees. */
  predicate UniqueKeys<K(==), V>(es: seq<(K, V)>)
  {
    forall i, j :: 0 <= i < j < |es| ==> es[i].0 != es[j].0
  }

  lemma KeysCons<K, V>(p: (K, V), es: seq<(K, V)>)
    ensures Keys([p] + es) == [p.0] + Keys(es)
  {
  }

  lemma UniqueTail<K, V>(es: seq<(K, V)>)
    requires es != [] && UniqueKeys(es)
    ensures UniqueKeys(es[1..]) && es[0].0 !in Keys(es[1..])
  {
    forall j | 0 <= j < |es| - 1
      ensures Keys(es[1..])[j] != es[0].0
    {
      assert es[1..][j] == es[j + 1];
    }
  }

  lemma UniqueCons<K, V>(p: (K, V), es: seq<(K, V)>)
    requires UniqueKeys(es) && p.0 !in Keys(es)
    ensures UniqueKeys([p] + es)
  {
    var r := [p] + es;
    forall i, j | 0 <= i < j < |r|
      ensures r[i].0 != r[j].0
    {
      assert r[j] == es[j - 1];
      if i == 0 {
        assert Keys(es)[j - 1] == r[j].0;
      } else {
        assert r[i] == es[i - 1];
      }
    }
  }

  /** `for x in v`: what the iteration yields, or `TypeError` for a scalar. */
  function Iterate(v: Value): (r: Result<seq<Value>>)
    ensures r.Success? <==> (v.VStr? || v.VList? || v.VSet? || v.VDict?)
    ensures r.Failure? ==> r.error == TypeError
  {
    match v
    case VStr(s) => Success(Chars(s))
    case VList(xs) => Success(xs)
    case VSet(xs) => Success(xs)
    case VDict(es) => Success(seq(|es|, i requires 0 <= i < |es| => VStr(es[i].0)))
    case _ => Failure(TypeError)
  }

  /** `d.get(k)` on a dict's entries (the first entry, should there be several). */
  function Lookup<K(==), V(==)>(es: seq<(K, V)>, k: K): (r: Option<V>)
    ensures r.Some? <==> k in Keys(es)
    ensures r.Some? ==> exists i :: 0 <= i < |es| && es[i] == (k, r.value)
  {
    if es == [] then None
    else if es[0].0 == k then Some(es[0].1)
    else
      var r := Lookup(es[1..], k);
      assert Keys(es) == [es[0].0] + Keys(es[1..]);
      if r.Some? then
        var i :| 0 <= i < |es[1..]| && es[1..][i] == (k, r.value);
        assert es[i + 1] == (k, r.value);
        r
      else r
  }

  /** Whether a Python index `n` selects an element of a sequence of length `len`
      (negative indices count from the end). */
  predicate InRange(n: int, len: nat)
  {
    -(len as int) <= n < len
  }

  /** `v[key]`. */
  function Subscript(v: Value, key: Value): (r: Result<Value>)
    ensures v.VDict? && key.VStr? ==>
      (r.Success? <==> key.s in Keys(v.entries))
    ensures key.VStr? && r.Success? ==> v.VDict? && Lookup(v.entries, key.s) == Some(r.value)
    ensures v.VList? && key.VInt? && InRange(key.i, |v.items|) ==>
      r == Success(v.items[if key.i < 0 then key.i + |v.items| else key.i])
    ensures (v.VNone? || v.VBool? || v.VInt? || v.VSet?) ==> r == Failure(TypeError)
    ensures r.Failure? ==> OperandError(r.error)
  {
    match v
    case VDict(es) =>
      if !Hashable(key) then Failure(TypeError)
      else if key.VStr? && Lookup(es, key.s).Some? then Success(Lookup(es, key.s).value)
      else Failure(KeyError)
    case VList(xs) =>
      if Position(key).None? then Failure(TypeError)
      else
        var n := Position(key).value;
        if InRange(n, |xs|) then Success(xs[if n < 0 then n + |xs| else n]) else Failure(IndexError)
    case VStr(s) =>
      if Position(key).None? then Failure(TypeError)
      else
        var n := Position(key).value;
        if InRange(n, |s|) then Success(VStr([s[if n < 0 then n + |s| else n]])) else Failure(IndexError)
    case _ => Failure(TypeError)
  }

  /** The integer a value denotes when used as a sequence index (`bool` is an `int`). */
  function Position(key: Value): Option<int>
  {
    match key
    case VInt(n) => Some(n)
    case VBool(b) => Some(if b then 1 else 0)
    case _ => None
  }

  /** `key in v` for a string `key`. */
  function Contains(v: Value, key: string): (r: Result<bool>)
    ensures v.VDict? ==> r == Success(key in Keys(v.entries))
    ensures r.Failure? <==> (v.VNone? || v.VBool? || v.VInt?)
    ensures r.Failure? ==> r.error == TypeError
  {
    match v
    case VDict(es) => Success(key in Keys(es))
    case VStr(s) => Success(Strings.Occurs(key, s))
    case VList(xs) => Success(VStr(key) in xs)
    case VSet(xs) => Success(VStr(key) in xs)
    case _ => Failure(TypeError)
  }

  /** No element of `xs` appears twice. */
  predicate NoRepeats<T(==)>(xs: seq<T>)
  {
    forall a, b :: 0 <= a < b < |xs| ==> xs[a] != xs[b]
  }

  /** The elements of `xs` without repeats, first occurrences kept in order. */
  function Dedup(xs: seq<Value>): (r: seq<Value>)
    ensures forall x :: x in r <==> x in xs
    ensures NoRepeats(r)
  {
    if xs == [] then []
    else
      var rest := Dedup(xs[..|xs| - 1]);
      if xs[|xs| - 1] in rest then rest else rest + [xs[|xs| - 1]]
  }

  /** `set(xs)`: `TypeError` when some element is unhashable. */
  function ToSet(xs: seq<Value>): (r: Result<Value>)
    ensures r.Success? <==> forall i :: 0 <= i < |xs| ==> Hashable(xs[i])
    ensures r.Success? ==> r.value.VSet? && (forall x :: x in r.value.elems <==> x in xs)
    ensures r.Failure? ==> r.error == TypeError
  {
    if exists i :: 0 <= i < |xs| && !Hashable(xs[i]) then Failure(TypeError)
    else Success(VSet(Dedup(xs)))
  }

  /** The concatenation of a sequence of strings, `TypeError` at a non-string. */
  function ConcatStrings(xs: seq<Value>): (r: Result<string>)
    ensures r.Success? <==> forall i :: 0 <= i < |xs| ==> xs[i].VStr?
    ensures r.Failure? ==> r.error == TypeError
  {
    if xs == [] then Success("")
    else if !xs[0].VStr? then Failure(TypeError)
    else
      var rest :- ConcatStrings(xs[1..]);
      Success(xs[0].s + rest)
  }

  /** `''.join(v)`: iterates `v` and concatenates what it yields. */
  function JoinValue(v: Value): (r: Result<string>)
    ensures r.Failure? ==> r.error == TypeError
  {
    var xs :- Iterate(v);
    ConcatStrings(xs)
  }
}

=== FILE: wrappers.dfy ===
/** Failure-compatible wrappers for the exceptions the modelled Python code raises.

  A Python call either returns a value or raises; the model returns `Success(v)` or
  `Failure(e)`, and `:-` propagates the first failure exactly as an uncaught
  exception propagates out of the enclosing call.
 */
module Wrappers {

  /** The exception classes the modelled code raises or lets propagate. */
  datatype Error =
    | TypeError            // wrong operand type, unhashable key, not iterable, not subscriptable
    | KeyError             // missing mapping key
    | IndexError           // sequence index out of range
    | AttributeError       // raised by `compare_objects` for unsupported shapes, or a missing method
    | NotImplementedError  // unsupported input kinds in `compare` and `_l2d`
    | ZeroDivisionError    // `group_batcher` with a zero group size
    | TypesMismatched      // the project's own exception for differently typed inputs
    | ContentSamplingError // the ContentKing module's "no valid URLs" exception

  /** The errors Python's built-in operations raise on an operand of the wrong kind or
      a missing key or index. */
  predicate OperandError(e: Error)
  {
    e == TypeError || e == KeyError || e == IndexError
  }

  datatype Option<+T> = None | Some(value: T) {

    function GetOr(default: T): T {
      match this
      case Some(v) => v
      case None => default
    }

    /** `this`, or `other` when `this` is `None`. */
    function OrElse(other: Option<T>): Option<T> {
      if Some? then this else other
    }
  }

  datatype Result<+T> = Success(value: T) | Failure(error: Error) {

    predicate IsFailure() {
      Failure?
    }

    function PropagateFailure<U>(): Result<U>
      requires Failure?
    {
      Failure(error)
    }

    function Extract(): T
      requires Success?
    {
      value
    }

    function GetOr(default: T): T {
      match this
      case Success(v) => v
      case Failure(_) => default
    }
  }
}
